=== FILE: README.md ===
# Tempus renderer: decision logic and lifecycle in Dafny

This project models the decision logic of the Tempus engine's Vulkan renderer
(`Tempus::Renderer`), and proves properties of it. Vulkan handles are opaque numbers.
Every driver or SDL query the renderer makes is an immutable input record: for each
physical device, its queue-family table (with the per-family present support for
the window surface), its extension names, its surface formats, present modes and
capabilities.

Modules, one per concern of the renderer:

- `Vk` is the plain-data vocabulary. It holds `uint32_t` and C `int` as subset
  types, with wrap-around written out (`AddU32`, `ToU32`). It also holds handles,
  the numeric codes of formats, colour spaces, present modes, queue flags and
  results, and the records for surface capabilities, queue families and devices.
- `Search` is the "first element that matches" scan the renderer writes out
  several times.
- `Swapchain` covers the surface-format, present-mode and extent choices, and the
  image count and sharing mode that `CreateSwapChain` fills in.
- `Devices` covers:
  - the ordered queue-family scan with its early stop, and `IsComplete`;
  - the extension and layer checks, `IsDeviceSuitable`, and `PickPhysicalDevice`
    with its two failure modes;
  - the unique-family queue create-infos of `CreateLogicalDevice`.
- `Debug` covers the debug callback's severity routing and the severities the
  messenger subscribes to. It also covers the manually loaded
  `vkCreate/DestroyDebugUtilsMessengerEXT` entry points, including what happens
  when an entry point is missing.
- `Startup` models `Init` as a fixed, fail-fast sequence of creation steps. A step
  returns true, returns false, or throws. It also gives the order in which Init
  creates objects.
- `Frames` models `DrawFrame` as a sequential machine whose traces list the
  Vulkan calls made. The GPU finishing a submitted frame is an explicit event. The
  in-flight fence starts signalled. A frame submitted after a failed acquire is
  starved: its submit waits on a semaphore nothing signalled. Vulkan leaves that
  undefined, and the model chooses that the GPU never finishes such a frame.
- `Teardown` gives the exact call sequence of `Cleanup` and relates it to what
  `Init` created.

Cleanup is not the reverse of creation. Init creates the command pool before the
semaphores and the fence, and `Cleanup` destroys the pool before them as well. The
model keeps the code's order, and `Teardown.CleanupIsNotReverseOfCreation` states it.

## Model

| member | source | states |
|---|---|---|
| Vk.AddU32 | Tempus/src/Tempus/Renderer.cpp:357 | `minImageCount + 1` is unsigned 32-bit addition. It is exact below 2^32 and wraps to the sum minus 2^32 above it. |
| Vk.ToU32 | Tempus/src/Tempus/Renderer.cpp:951-955 | `static_cast<uint32_t>` of the drawable size keeps non-negative values and wraps negative ones modulo 2^32. |
| Search.FirstIndex | Tempus/src/Tempus/Renderer.cpp:270-277 | The scan finds an index iff some element matches. The index found matches, and no earlier element does. |
| Swapchain.ChooseSwapSurfaceFormat | Tempus/src/Tempus/Renderer.cpp:922-935 | The chosen format is always one of the offered formats. It is B8G8R8A8_SRGB with SRGB_NONLINEAR when the list offers that pair, and the first entry otherwise. The list must be non-empty. |
| Swapchain.PreferredFormatChoiceIgnoresLaterEntries | Tempus/src/Tempus/Renderer.cpp:924-932 | Once the preferred pair is offered, appending more formats to the list does not change the choice. |
| Swapchain.ChooseSwapPresentMode | Tempus/src/Tempus/Renderer.cpp:907-920 | The mode is MAILBOX exactly when the list offers MAILBOX. Otherwise it is FIFO. |
| Swapchain.FifoIsAssumedNotLookedUp | Tempus/src/Tempus/Renderer.cpp:918-919 | The returned mode is missing from the device's list exactly when the list has neither MAILBOX nor FIFO. FIFO is taken on the Vulkan specification's guarantee, not looked up. |
| Swapchain.Clamp | Tempus/src/Tempus/Renderer.cpp:957-958 | `std::clamp` returns the value within [lo, hi] nearest to its argument. It requires lo <= hi, as `std::clamp` does. |
| Swapchain.ChooseSwapExtent | Tempus/src/Tempus/Renderer.cpp:937-962 | A current extent whose width is not 0xFFFFFFFF is returned verbatim. Otherwise the result lies within the surface's min/max extent, and it equals the drawable size when that size already fits. |
| Swapchain.OnlyWidthIsTestedForSentinel | Tempus/src/Tempus/Renderer.cpp:940-943 | A current extent whose height alone is 0xFFFFFFFF is still returned verbatim: only the width is tested. |
| Swapchain.ExtentClampsEachComponent | Tempus/src/Tempus/Renderer.cpp:957-958 | Under the sentinel and for non-negative drawable sizes, each drawable component above its maximum becomes the maximum, and each below its minimum becomes the minimum. Width and height are clamped independently. |
| Swapchain.NegativeDrawableClampsToMax | Tempus/src/Tempus/Renderer.cpp:951-958 | Under the sentinel, a negative drawable component becomes a huge value through `static_cast<uint32_t>` and is clamped to the MAXIMUM extent, not the minimum (for maxima below 2^31). |
| Swapchain.SentinelExtentUsesDrawableSize | Tempus/src/Tempus/Renderer.cpp:944-961 | Example: sentinel extent, drawable 800x600, bounds 640x480..1920x1080 give 800x600. |
| Swapchain.RequestedImageCount | Tempus/src/Tempus/Renderer.cpp:356-363 | The request is the largest count not above minImageCount + 1 that respects a non-zero maxImageCount, and it is at least minImageCount when minImageCount itself respects the maximum. Because the addition is in uint32, minImageCount = 0xFFFFFFFF gives 0. |
| Swapchain.RequestedImageCountIsAccepted | Tempus/src/Tempus/Renderer.cpp:356-363 | For limits a conforming driver reports, the request lies within [minImageCount, maxImageCount]. It is exactly minImageCount + 1 when the maximum allows it. |
| Swapchain.UnboundedMaximumAddsOneImage | Tempus/src/Tempus/Renderer.cpp:357-363 | Example: min = 2 and max = 0 (no limit) request 3 images. |
| Swapchain.MaximumCapsImageCount | Tempus/src/Tempus/Renderer.cpp:360-363 | Example: min = 2 and max = 2 request 2 images. |
| Swapchain.ChooseImageSharing | Tempus/src/Tempus/Renderer.cpp:388-406 | Sharing is CONCURRENT iff the graphics and present families differ, and then both family indices are listed. Otherwise it is EXCLUSIVE with no index list. |
| Swapchain.SharingAgreesWithQueueCreation | Tempus/src/Tempus/Renderer.cpp:297-311 | The swapchain is EXCLUSIVE exactly when the logical device creates a single queue family. When it is CONCURRENT, its two indices are the families the device creates queues in. |
| Swapchain.CreateSwapchainInfo | Tempus/src/Tempus/Renderer.cpp:348-406 | The create-info carries the chosen surface format and colour space, the chosen present mode, the chosen extent, the requested image count and the chosen sharing mode. Under the 0xFFFFFFFF sentinel the extent lies within the surface's bounds, and otherwise it is the current extent. For conforming count limits the image count lies within [minImageCount, maxImageCount]. It has one array layer, clipping on, no old swapchain, and the surface's current transform. |
| Devices.FindQueueFamilies | Tempus/src/Tempus/Renderer.cpp:834-874 | Each slot holds the last capable index before the scan stops, and the scan stops right after the first prefix that contains both capabilities. The result is complete iff some family can do graphics and some family can present. Every returned index is in range and has the matching capability. |
| Devices.ScanFamilies | Tempus/src/Tempus/Renderer.cpp:846-871 | The loop from any index whose slots hold the last capable indices so far, and are not yet both set, ends in a result that matches the scan description: the scan stops right after the first prefix holding both capabilities, and each slot holds the last capable index before that. The `IsComplete` test of Renderer.h:48-51 is both the stop condition and the completeness verdict. |
| Devices.ScanResultIsUnique | Tempus/src/Tempus/Renderer.cpp:846-871 | The scan description in FindQueueFamilies' contract determines the result uniquely, so that contract fully specifies the loop. |
| Devices.ScanStopsAtFirstCompletingFamily | Tempus/src/Tempus/Renderer.cpp:865-868 | Once a prefix of the table completes both slots, families after it never change the result. |
| Devices.GraphicsSlotKeepsLastIndexBeforeStop | Tempus/src/Tempus/Renderer.cpp:850-853 | Example: with two graphics-only families before a present-only one, the graphics slot holds the second of them, because later capable indices overwrite earlier ones. |
| Devices.EraseAvailable | Tempus/src/Tempus/Renderer.cpp:1026-1031 | After erasing every available name from the required set, exactly the required names that are not available remain. |
| Devices.CheckDeviceExtensionSupport | Tempus/src/Tempus/Renderer.cpp:1018-1034 | The check passes iff every required extension appears among the available ones. |
| Devices.CheckValidationLayerSupport | Tempus/src/Tempus/Renderer.cpp:984-1016 | The check passes iff every requested layer appears among the available ones. |
| Devices.SubsetChecksAgree | Tempus/src/Tempus/Renderer.cpp:984-1034 | The extension check and the layer check give the same verdict on the same lists: both test "required is a subset of available". |
| Devices.IsDeviceSuitable | Tempus/src/Tempus/Renderer.cpp:964-982 | A device is suitable iff it has a graphics family and a present family, offers VK_KHR_swapchain, and has at least one surface format and at least one present mode. |
| Devices.PickPhysicalDevice | Tempus/src/Tempus/Renderer.cpp:253-288 | An empty enumeration fails with "no Vulkan device", and a list without a suitable device fails with "no suitable device". Otherwise the pick is the first suitable device. Something is picked iff a suitable device exists. |
| Devices.PickedDeviceHasCompleteQueueFamilies | Tempus/src/Tempus/Renderer.cpp:293-297 | The picked device has complete queue families and non-empty format and present-mode lists, so the later `.value()` and `formats[0]` accesses are safe. |
| Devices.QueueCreateInfos | Tempus/src/Tempus/Renderer.cpp:297-311 | There is one create-info, with one queue, per distinct family of {graphics, present}, in ascending family order. That is 1 create-info when the two families are equal and 2 otherwise. |
| Debug.DebugCallback | Tempus/src/Tempus/Renderer.h:152-175 | Info, warning and error messages are logged at the matching level. Verbose and unknown severities are not logged. The callback always returns VK_FALSE. |
| Debug.DeliveredMessagesNeverLogAsInfo | Tempus/src/Tempus/Renderer.cpp:1057-1065 | Among the severities the messenger subscribes to (`SubscribedSeverities`: verbose, warning, error), only verbose is dropped, and nothing is ever logged as info. |
| Debug.CreateDebugUtilsMessengerEXT | Tempus/src/Tempus/Renderer.h:178-190 | A missing entry point gives VK_ERROR_EXTENSION_NOT_PRESENT and registers nothing. A loaded one gives its own result. A messenger is registered iff the result is VK_SUCCESS. |
| Debug.DestroyDebugUtilsMessengerEXT | Tempus/src/Tempus/Renderer.h:192-200 | A missing entry point leaves the registrations unchanged. A loaded one removes the messenger and nothing else. |
| Debug.SetupNeedsLoadedEntryPoint | Tempus/src/Tempus/Renderer.cpp:238-251 | SetupDebugMessenger succeeds exactly when the entry point loads and reports VK_SUCCESS. |
| Debug.CreateThenDestroyRestoresRegistry | Tempus/src/Tempus/Renderer.h:178-200 | Creating a messenger and then destroying it, with both entry points loaded, restores the instance's registrations. |
| Debug.MissingDestroyEntryLeaksMessenger | Tempus/src/Tempus/Renderer.h:192-200 | When the destroy entry point is missing, the created messenger stays registered. |
| Startup.InitPlan | Tempus/src/Tempus/Renderer.cpp:39-102 | The debug messenger step is present iff validation layers are enabled, giving 13 or 12 steps. The sequence starts with the instance and ends with the sync objects. |
| Startup.PlanHoldsEveryStep | Tempus/src/Tempus/Renderer.cpp:39-102 | Every creation step is in the plan, except the debug messenger without validation. |
| Startup.RunStep | Tempus/src/Tempus/Renderer.cpp:39-102 | A step throws iff it is the pipeline step and a shader module cannot be created. The instance step succeeds iff the desired layer is available (when validation is on) and `vkCreateInstance` succeeds. The debug messenger step succeeds iff its entry point loads and reports VK_SUCCESS. The surface step succeeds iff there is a window with a native window and `SDL_Vulkan_CreateSurface` succeeds. The device pick succeeds iff some device is suitable. Once the shader modules load, the pipeline step succeeds iff its driver calls do. Every other step follows its driver call's result. |
| Startup.RunPlan | Tempus/src/Tempus/Renderer.cpp:39-104 | The steps attempted are a prefix of the plan. The result is true iff every step succeeds, and then all steps were attempted. Otherwise every attempted step but the last succeeded, and the last one failed or threw. |
| Startup.Init | Tempus/src/Tempus/Renderer.cpp:29-106 | A null window returns false before any step. The steps attempted are a prefix of the plan, and Init stops at the first step that fails or throws. It returns true iff there is a window and every step succeeds. A throwing step propagates as an exception, not as false. |
| Startup.SuccessfulInitSelectedADevice | Tempus/src/Tempus/Renderer.cpp:54-57 | After a successful Init, a suitable device was picked. Its queue families are complete and its format list is non-empty. |
| Startup.MissingLayerStopsAtInstance | Tempus/src/Tempus/Renderer.cpp:179-184 | With validation on and the desired layer missing, Init attempts only the instance and returns false. |
| Startup.ShaderFailureThrows | Tempus/src/Tempus/Renderer.cpp:804-820 | When every step before the pipeline succeeds, a failing shader module makes Init raise from the pipeline step instead of returning false. The steps attempted are exactly the plan up to and including the pipeline step. |
| Startup.InCreationOrder | Tempus/src/Tempus/Renderer.cpp:39-102 | An object is in the creation order of a step sequence iff one of the steps creates it. |
| Startup.CreatedByItsStep | Tempus/src/Tempus/Renderer.cpp:39-102 | Each object Init can create has exactly one step that creates it. |
| Startup.InitCreatesExactly | Tempus/src/Tempus/Renderer.cpp:39-102 | A successful Init creates exactly these objects: instance, messenger (only with validation), surface, device, swapchain and its images, one view and one framebuffer per image, render pass, pipeline layout, pipeline, command pool and buffer, two semaphores and the fence. |
| Frames.AfterWait | Tempus/src/Tempus/Renderer.cpp:132-175 | After the wait returns, a frame makes five calls in order: reset the fence, acquire an image, reset and record the command buffer for the acquired image, and submit waiting on image-available and signalling render-finished. It then presents the acquired image iff the submit is accepted, and throws iff it is rejected. Only an accepted submit adds a frame in flight. The fence is left unsignalled, and the frame is starved iff an accepted submit follows a failed acquire. |
| Frames.Step | Tempus/src/Tempus/Renderer.cpp:127-177 | An update on a free CPU first waits on the fence. If the fence is signalled, the step is exactly that wait followed by AfterWait's frame. If it is unsignalled the CPU blocks there, holding the frame's inputs, after that one call. A blocked CPU ignores further updates. A GPU completion does nothing when nothing is in flight or the frame is starved. Otherwise it signals the fence first and leaves the CPU free; a blocked CPU then runs its held frame, exactly as AfterWait gives it. AtMostOneFrameInFlight, RunIsChained and AcceptedSubmitsKeepFenceExact carry what a sequence of steps means. |
| Frames.Run | Tempus/src/Tempus/Renderer.cpp:127-177 | Repeated DrawFrame calls and GPU completions only extend the trace: the trace of all but the last event is a prefix of the whole trace. |
| Frames.AtMostOneFrameInFlight | Tempus/src/Tempus/Renderer.cpp:127-177 | For any interleaving of frames and GPU completions from the fence-signalled start, accepted submits minus fence signals equals the frames in flight. That count stays within [0, 1] at every point of the trace. |
| Frames.FirstFrameDoesNotBlock | Tempus/src/Tempus/Renderer.cpp:727-745 | Because the fence is created signalled, the first frame runs at once: wait, reset fence, acquire, reset and record the command buffer, submit, then present (or throw on a rejected submit). |
| Frames.RunIsChained | Tempus/src/Tempus/Renderer.cpp:136-175 | In every trace, each submit waits on the image-available semaphore of the acquire before it, after recording the acquired image. Each present directly follows an accepted submit, waits on the render-finished semaphore that submit signals, and shows the recorded image. |
| Frames.UncheckedResultsAreIgnored | Tempus/src/Tempus/Renderer.cpp:136-175 | Changing the acquire, record or present result changes neither the calls made nor the fence and in-flight state. Once the fence wait returns, the record and present results change nothing in the model, which treats a frame whose recording failed as finishing like any other. |
| Frames.RejectedSubmitLeavesFenceUnsignalled | Tempus/src/Tempus/Renderer.cpp:158-161 | A rejected submit throws after the fence was reset, before presenting, and with nothing handed to the GPU. The fence then stays unsignalled with nothing in flight. |
| Frames.StalledFrameNeverResumes | Tempus/src/Tempus/Renderer.cpp:130 | A CPU that waits on a fence no outstanding work will signal stays blocked, and it makes no further calls whatever happens next. This holds both when nothing is in flight and when the frame in flight is starved. |
| Frames.RejectedSubmitStallsTheNextFrame | Tempus/src/Tempus/Renderer.cpp:130-161 | If a caller catches a rejected first submit and draws again, the second frame waits forever. |
| Frames.FailedAcquireStallsTheNextFrame | Tempus/src/Tempus/Renderer.cpp:136-161 | When the first acquire fails (anything but VK_SUCCESS or VK_SUBOPTIMAL_KHR) and its submit is accepted, the second frame blocks on the fence forever. No GPU completion or later update produces another call. |
| Frames.AcceptedSubmitsKeepFenceExact | Tempus/src/Tempus/Renderer.cpp:130-161 | While every submit is accepted, the fence is unsignalled exactly when one frame is in flight. A blocked frame that is not starved is resumed by the next GPU completion. While every acquire also signals, no frame is starved, so every blocked frame resumes. |
| Teardown.Cleanup | Tempus/src/Tempus/Renderer.cpp:1152-1187 | Cleanup makes 12 calls, plus one for the messenger when validation is on and its destroy entry point loads, plus two per image. DeviceIdledFirst and the ordering and coverage lemmas below say which calls these are and in what order. |
| Teardown.DestroyEach | Tempus/src/Tempus/Renderer.cpp:1169-1177 | The per-image loops destroy image 0, 1, ..., n-1, one call each. |
| Teardown.DeviceIdledFirst | Tempus/src/Tempus/Renderer.cpp:1156 | Cleanup idles the device first, and every later call is a destroy. |
| Teardown.MessengerDestroyedOnlyWithValidation | Tempus/src/Tempus/Renderer.cpp:1158-1161 | The debug messenger is destroyed iff validation is on and the destroy entry point loads. |
| Teardown.FramebuffersBeforeViewsBeforeSwapchain | Tempus/src/Tempus/Renderer.cpp:1169-1182 | Every framebuffer is destroyed before every image view, and every image view before the swapchain. |
| Teardown.PipelineBeforeLayoutBeforeRenderPass | Tempus/src/Tempus/Renderer.cpp:1179-1181 | The pipeline is destroyed before its layout, and the layout before the render pass. |
| Teardown.DeviceObjectsBeforeDeviceSurfaceInstance | Tempus/src/Tempus/Renderer.cpp:1163-1185 | Every device-owned object is destroyed before the device. The last three calls destroy the device, the surface and the instance, in that order. |
| Teardown.SwapchainImagesNeverDestroyed | Tempus/src/Tempus/Renderer.cpp:415-419 | No swapchain image is destroyed individually: the images belong to the swapchain. |
| Teardown.NothingDestroyedTwice | Tempus/src/Tempus/Renderer.cpp:1152-1187 | No object is destroyed twice. |
| Teardown.CleanupDestroysWhatInitCreated | Tempus/src/Tempus/Renderer.cpp:1152-1187 | After a successful Init, Cleanup destroys exactly what Init created, with three exceptions. The command buffer is freed with its pool. The swapchain images are owned by the swapchain. The messenger is skipped when its destroy entry point is missing. |
| Teardown.CleanupIsNotReverseOfCreation | Tempus/src/Tempus/Renderer.cpp:1163-1167 | Init creates the command pool before the in-flight fence, and Cleanup also destroys the pool before the fence, so teardown is not the reverse of creation. |

## Left out

- The Vulkan and SDL calls are not modelled as code. Their answers are inputs: the
  enumerations of devices, layers, extensions, queue families and formats, and each
  remaining creation step's success (`Environment.driverSucceeds`).
- Per-family present support (`vkGetPhysicalDeviceSurfaceSupportKHR`) is a field of
  each queue family rather than a query against the surface.
- The name behind `DESIRED_VK_LAYER` is defined outside the renderer's files, so the
  requested layer is an input.
- The number of swapchain images `vkGetSwapchainImagesKHR` reports is a parameter
  of the creation and teardown models, not derived from the requested count.
- The literal create-info values of the swapchain (`imageUsage`, `compositeAlpha`),
  render pass, graphics pipeline, image views and command recording are constant
  configuration. They are not modelled.
- The floating-point clear colour, queue priority and viewport are not modelled.
- Shader file reading is left out. `CreateShaderModule` appears only as the
  exception it throws, through `Environment.shaderModulesCreated`.
- Logging is left out: the log macros, `LogExtensionsAndLayers` and
  `LogDeviceInfo`. `Debug.DebugCallback` records only which level a message
  reaches.
- `GetRequiredExtensions` is left out. It only builds the instance's extension list,
  and the instance step's success is an input.
- The application layer (Application, Core) and the `RenderClear` /
  `RenderPresent` stubs are left out.
- CPU/GPU concurrency is left out. The GPU finishing a frame is a separate event in
  a sequential trace, and a `GpuComplete` with nothing in flight does nothing.
- `vkGetDeviceQueue` is left out. The model does not distinguish queues beyond
  their family indices.
- Swapchain recreation and resize are not modelled, because the code does not
  implement them.
- Frames.Step: the fence wait is modelled as returning only once the fence is
  signalled. Its `vkWaitForFences` result (device lost, out of host or device
  memory), which the code ignores, is not modelled.
- Frames.AcceptedSubmitsKeepFenceExact no longer promises that every blocked frame
  resumes. A frame submitted after a failed acquire is starved, which the model
  treats as never finishing (see `Frames.AfterWait` below), so it never resumes,
  as `Frames.FailedAcquireStallsTheNextFrame` shows. The promise is kept for runs
  in which every acquire signals.
- Teardown.Cleanup: only the teardown after a successful Init is modelled. After a
  failed Init the destructor still runs `Cleanup` on handles that were never
  created.
- Frames.UncheckedResultsAreIgnored: `RecordCommandBuffer` returns false when
  `vkBeginCommandBuffer` fails, leaving the buffer in the initial state, and when
  `vkEndCommandBuffer` fails, leaving it invalid. `DrawFrame` ignores that result and
  submits the buffer anyway, which Vulkan leaves undefined. The model picks the
  outcome in which the GPU finishes that frame and signals the fence as usual.
- Frames.AfterWait: after a failed acquire the code goes on with an uninitialised
  image index, which `RecordCommandBuffer` uses to index the framebuffer list
  (undefined behaviour on the CPU). It then submits work that waits on a semaphore
  nothing signalled, which Vulkan also leaves undefined. The model records the frame
  with the index it is given and picks the outcome in which the GPU never finishes
  that submit.
- Startup.RunStep: `CreateImageViews`, `CreateGraphicsPipeline`,
  `CreateFrameBuffers` and `CreateSyncObjects` fail as a whole step. The first
  creates views one by one and returns false at the first failure. The pipeline step
  creates the vertex shader module before the fragment module can throw, and the
  pipeline layout before the pipeline can fail. Which of their objects were created
  before a failure inside the step is not tracked.
- Swapchain.ChooseSwapSurfaceFormat requires a non-empty list, and
  Devices.QueueCreateInfos and Swapchain.ChooseImageSharing require complete queue
  families. The code dereferences these without checking (`formats[0]`,
  `.value()`). `Devices.PickedDeviceHasCompleteQueueFamilies` and
  `Startup.SuccessfulInitSelectedADevice` show that the device Init selects always
  meets these requirements.
- Swapchain.ChooseSwapExtent requires min <= max extent when the sentinel is
  present, because `std::clamp` is undefined otherwise.

=== FILE: debug.dfy ===
/**
 Validation-layer diagnostics: the debug callback's severity routing, the
 severities the messenger subscribes to, and the manually loaded
 create/destroy entry points of VK_EXT_debug_utils.
 */
module Debug {
  import opened Vk
  import opened Search

  /** VkDebugUtilsMessageSeverityFlagBitsEXT codes. */
  type Severity = int
  const SeverityVerbose: Severity := 0x1
  const SeverityInfo: Severity := 0x10
  const SeverityWarning: Severity := 0x100
  const SeverityError: Severity := 0x1000

  /** The logger levels the callback reaches (TPS_CORE_INFO, _WARN, _ERROR). */
  datatype LogLevel = Info | Warn | Error

  datatype LogLine = LogLine(level: LogLevel, message: string)

  /** What one callback invocation does: at most one log line, and the VkBool32 it
      hands back to the validation layer. */
  datatype CallbackOutcome = CallbackOutcome(logged: Option<LogLine>, returned: Bool32)

  /** DebugCallback: verbose messages are dropped (their log call is commented out),
      info, warning and error go to the matching level, anything else is dropped; the
      callback never asks the layer to abort the call. */
  function DebugCallback(severity: Severity, message: string): (r: CallbackOutcome)
    ensures r.returned == False32
    ensures r.logged.Some? ==> r.logged.value.message == message
    ensures r.logged == Some(LogLine(Info, message)) <==> severity == SeverityInfo
    ensures r.logged == Some(LogLine(Warn, message)) <==> severity == SeverityWarning
    ensures r.logged == Some(LogLine(Error, message)) <==> severity == SeverityError
    ensures r.logged.None? <==> severity !in {SeverityInfo, SeverityWarning, SeverityError}
  {
    var logged :=
      if severity == SeverityVerbose then None
      else if severity == SeverityInfo then Some(LogLine(Info, message))
      else if severity == SeverityWarning then Some(LogLine(Warn, message))
      else if severity == SeverityError then Some(LogLine(Error, message))
      else None;
    CallbackOutcome(logged, False32)
  }

  /** The severities PopulateDebugMessengerCreateInfo subscribes to: verbose, warning
      and error. Info is not among them. */
  const SubscribedSeverities: set<Severity> := {SeverityVerbose, SeverityWarning, SeverityError}

  /** Of the messages the messenger actually delivers, none is logged as info: verbose
      ones are dropped, and the rest are logged as warnings or errors. */
  lemma DeliveredMessagesNeverLogAsInfo(severity: Severity, message: string)
    requires severity in SubscribedSeverities
    ensures DebugCallback(severity, message).logged.None? <==> severity == SeverityVerbose
    ensures DebugCallback(severity, message).logged.Some? ==>
              DebugCallback(severity, message).logged.value.level in {Warn, Error}
  {
  }

  /** vkGetInstanceProcAddr's answer for an extension entry point: missing (null), or
      a loaded function that returns the given VkResult. */
  datatype EntryPoint = Missing | Loaded(result: VkResult)

  /** Debug messengers currently registered with the instance. */
  type Registry = set<LiveHandle>

  datatype CreateOutcome = CreateOutcome(result: VkResult, messenger: Handle, registry: Registry)

  /** CreateDebugUtilsMessengerEXT: VK_ERROR_EXTENSION_NOT_PRESENT when the entry point
      cannot be loaded, otherwise whatever the loaded function returns; a messenger
      (`newMessenger`, the handle the driver hands out) is registered only on VK_SUCCESS. */
  function CreateDebugUtilsMessengerEXT(entry: EntryPoint, registry: Registry, newMessenger: LiveHandle): (r: CreateOutcome)
    ensures entry.Missing? ==> r.result == ErrorExtensionNotPresent && r.registry == registry
    ensures entry.Loaded? ==> r.result == entry.result
    ensures r.result == Success <==> r.messenger != NullHandle
    ensures r.result == Success ==> r.registry == registry + {newMessenger} && r.messenger == newMessenger
    ensures r.result != Success ==> r.registry == registry
  {
    match entry
    case Missing => CreateOutcome(ErrorExtensionNotPresent, NullHandle, registry)
    case Loaded(result) =>
      if result == Success then CreateOutcome(Success, newMessenger, registry + {newMessenger})
      else CreateOutcome(result, NullHandle, registry)
  }

  /** DestroyDebugUtilsMessengerEXT: does nothing when the entry point cannot be loaded;
      otherwise the messenger is unregistered. */
  function DestroyDebugUtilsMessengerEXT(entryLoaded: bool, registry: Registry, messenger: Handle): (r: Registry)
    ensures !entryLoaded ==> r == registry
    ensures entryLoaded ==> messenger !in r && r <= registry && registry - r <= {messenger}
  {
    if entryLoaded then (set h | h in registry && h != messenger) else registry
  }

  /** SetupDebugMessenger succeeds only when the create entry point is loaded and the
      loaded function reports success. */
  lemma SetupNeedsLoadedEntryPoint(entry: EntryPoint, registry: Registry, newMessenger: LiveHandle)
    ensures CreateDebugUtilsMessengerEXT(entry, registry, newMessenger).result == Success <==>
              entry == Loaded(Success)
  {
  }

  /** Creating a messenger and destroying it again, both entry points loaded, leaves
      the instance's registry as it was. */
  lemma CreateThenDestroyRestoresRegistry(registry: Registry, newMessenger: LiveHandle)
    requires newMessenger !in registry
    ensures var created := CreateDebugUtilsMessengerEXT(Loaded(Success), registry, newMessenger);
            DestroyDebugUtilsMessengerEXT(true, created.registry, created.messenger) == registry
  {
  }

  /** With the destroy entry point missing, the messenger stays registered: cleanup
      then leaks it. */
  lemma MissingDestroyEntryLeaksMessenger(registry: Registry, newMessenger: LiveHandle)
    requires newMessenger !in registry
    ensures var created := CreateDebugUtilsMessengerEXT(Loaded(Success), registry, newMessenger);
            newMessenger in DestroyDebugUtilsMessengerEXT(false, created.registry, created.messenger)
  {
  }
}

=== FILE: devices.dfy ===
/**
 Device selection: the queue-family scan, the extension and validation-layer
 checks, the suitability test, the first-suitable device pick, and the queue
 create-infos of the logical device.
 */
module Devices {
  import opened Vk
  import opened Search

  /** The required device-extension list: exactly VK_KHR_swapchain. */
  const SwapchainExtensionName: string := "VK_KHR_swapchain"
  const DeviceExtensions: seq<string> := [SwapchainExtensionName]

  /** Optional graphics and present family indices of one device. */
  datatype QueueFamilyIndices = QueueFamilyIndices(graphicsFamily: Option<nat>, presentFamily: Option<nat>) {
    predicate IsComplete() {
      graphicsFamily.Some? && presentFamily.Some?
    }
  }

  predicate IsGraphicsFamily(f: QueueFamily) {
    f.queueFlags & QueueGraphicsBit != 0
  }

  predicate SupportsPresent(f: QueueFamily) {
    f.presentSupport
  }

  function Max(a: nat, b: nat): nat {
    if a < b then b else a
  }

  /** `slot` holds the LAST index below `len` whose family has capability `cap`,
      or nothing when no family below `len` has it. */
  ghost predicate IsLastCapable(families: seq<QueueFamily>, cap: QueueFamily -> bool, slot: Option<nat>, len: nat)
    requires len <= |families|
  {
    match slot
    case Some(k) => k < len && cap(families[k]) && forall j :: k < j < len ==> !cap(families[j])
    case None => forall j :: 0 <= j < len ==> !cap(families[j])
  }

  /** Some graphics family and some present family occur among the first `len` families. */
  ghost predicate CompleteWithin(families: seq<QueueFamily>, len: nat)
    requires len <= |families|
  {
    && (exists j :: 0 <= j < len && IsGraphicsFamily(families[j]))
    && (exists j :: 0 <= j < len && SupportsPresent(families[j]))
  }

  /** How many families the scan looks at before it stops. */
  function ScanLength(families: seq<QueueFamily>, r: QueueFamilyIndices): nat {
    if r.IsComplete() then Max(r.graphicsFamily.value, r.presentFamily.value) + 1 else |families|
  }

  /** The result of the ordered scan, described without running it: the scan stops
      right after the first prefix that holds both capabilities (or at the end of the
      table), and each slot holds the last capable index it has seen. */
  ghost predicate IsScanResult(families: seq<QueueFamily>, r: QueueFamilyIndices) {
    && ScanLength(families, r) <= |families|
    && IsLastCapable(families, IsGraphicsFamily, r.graphicsFamily, ScanLength(families, r))
    && IsLastCapable(families, SupportsPresent, r.presentFamily, ScanLength(families, r))
    && (r.IsComplete() ==> !CompleteWithin(families, ScanLength(families, r) - 1))
  }

  /** The loop of FindQueueFamilies from index `i` on, `acc` being the slots after
      the first `i` families (which did not yet hold both capabilities). */
  function ScanFamilies(families: seq<QueueFamily>, i: nat, acc: QueueFamilyIndices): (r: QueueFamilyIndices)
    requires i <= |families|
    requires IsLastCapable(families, IsGraphicsFamily, acc.graphicsFamily, i)
    requires IsLastCapable(families, SupportsPresent, acc.presentFamily, i)
    requires !acc.IsComplete()
    ensures IsScanResult(families, r)
    decreases |families| - i
  {
    if i == |families| then acc
    else
      var graphics := if IsGraphicsFamily(families[i]) then Some(i) else acc.graphicsFamily;
      var present := if SupportsPresent(families[i]) then Some(i) else acc.presentFamily;
      var next := QueueFamilyIndices(graphics, present);
      if next.IsComplete() then next else ScanFamilies(families, i + 1, next)
  }

  /** FindQueueFamilies: scan the queue-family table in index order, overwriting a
      slot with every capable index, and stop at the first index where both are set. */
  function FindQueueFamilies(families: seq<QueueFamily>): (r: QueueFamilyIndices)
    ensures IsScanResult(families, r)
    ensures r.IsComplete() <==> Exists(families, IsGraphicsFamily) && Exists(families, SupportsPresent)
    ensures r.graphicsFamily.Some? ==>
              r.graphicsFamily.value < |families| && IsGraphicsFamily(families[r.graphicsFamily.value])
    ensures r.presentFamily.Some? ==>
              r.presentFamily.value < |families| && SupportsPresent(families[r.presentFamily.value])
  {
    ScanFamilies(families, 0, QueueFamilyIndices(None, None))
  }

  /** The names of `required` that no entry of `available` erased. */
  function EraseAvailable(required: set<string>, available: seq<string>): (r: set<string>)
    ensures forall x :: x in r <==> x in required && x !in available
    decreases |available|
  {
    if |available| == 0 then required
    else EraseAvailable(required - {available[0]}, available[1..])
  }

  /** CheckDeviceExtensionSupport: start from the set of required names, erase every
      available name, and succeed iff nothing is left. */
  function CheckDeviceExtensionSupport(required: seq<string>, available: seq<string>): (b: bool)
    ensures b <==> forall x :: x in required ==> x in available
  {
    var remaining := EraseAvailable((set x | x in required), available);
    assert (forall x :: x in required ==> x in available) ==> remaining == {};
    remaining == {}
  }

  /** CheckValidationLayerSupport: for each requested layer in order, search the
      available layers; give up at the first requested layer that is missing. */
  function CheckValidationLayerSupport(requested: seq<string>, available: seq<string>): (b: bool)
    ensures b <==> forall i :: 0 <= i < |requested| ==> requested[i] in available
  {
    if |requested| == 0 then true
    else if !Contains(available, requested[0]) then false
    else CheckValidationLayerSupport(requested[1..], available)
  }

  /** IsDeviceSuitable: complete queue families, every required extension present,
      and (queried only when the extensions are present) a non-empty format list and
      a non-empty present-mode list. */
  function IsDeviceSuitable(device: PhysicalDevice): (b: bool)
    ensures b <==>
              && Exists(device.queueFamilies, IsGraphicsFamily)
              && Exists(device.queueFamilies, SupportsPresent)
              && SwapchainExtensionName in device.extensions
              && |device.support.formats| > 0
              && |device.support.presentModes| > 0
  {
    var indices := FindQueueFamilies(device.queueFamilies);
    var extensionsSupported := CheckDeviceExtensionSupport(DeviceExtensions, device.extensions);
    var swapChainAdequate :=
      if extensionsSupported then |device.support.formats| > 0 && |device.support.presentModes| > 0
      else false;
    indices.IsComplete() && extensionsSupported && swapChainAdequate
  }

  datatype PickError = NoVulkanDevice | NoSuitableDevice

  datatype PickResult = Picked(device: PhysicalDevice) | PickFailed(error: PickError)

  /** PickPhysicalDevice: fail on an empty enumeration; otherwise keep the first
      suitable device, and fail if the chosen handle is still VK_NULL_HANDLE. */
  function PickPhysicalDevice(devices: seq<PhysicalDevice>): (r: PickResult)
    ensures |devices| == 0 ==> r == PickFailed(NoVulkanDevice)
    ensures |devices| > 0 && !Exists(devices, IsDeviceSuitable) ==> r == PickFailed(NoSuitableDevice)
    ensures r.Picked? <==> Exists(devices, IsDeviceSuitable)
    ensures r.Picked? ==>
              exists i :: 0 <= i < |devices| && devices[i] == r.device && IsDeviceSuitable(devices[i])
                          && forall j :: 0 <= j < i ==> !IsDeviceSuitable(devices[j])
  {
    if |devices| == 0 then PickFailed(NoVulkanDevice)
    else
      var found := FirstIndex(devices, IsDeviceSuitable);
      // m_PhysicalDevice starts as VK_NULL_HANDLE and is assigned only on a match
      var physicalDevice: Handle := if found.Some? then devices[found.value].handle else NullHandle;
      if physicalDevice == NullHandle then PickFailed(NoSuitableDevice)
      else Picked(devices[found.value])
  }

  /** One VkDeviceQueueCreateInfo: a family and how many queues to create in it. */
  datatype QueueCreateInfo = QueueCreateInfo(queueFamilyIndex: nat, queueCount: nat)

  function CreateInfoFamilies(infos: seq<QueueCreateInfo>): set<nat> {
    set i | 0 <= i < |infos| :: infos[i].queueFamilyIndex
  }

  /** CreateLogicalDevice's queue create-infos: one per element of the std::set
      {graphics, present}, visited in ascending order, each asking for one queue. */
  function QueueCreateInfos(indices: QueueFamilyIndices): (r: seq<QueueCreateInfo>)
    requires indices.IsComplete()
    ensures CreateInfoFamilies(r) == {indices.graphicsFamily.value, indices.presentFamily.value}
    ensures |r| == (if indices.graphicsFamily == indices.presentFamily then 1 else 2)
    ensures forall i :: 0 <= i < |r| ==> r[i].queueCount == 1
    ensures forall i, j :: 0 <= i < j < |r| ==> r[i].queueFamilyIndex < r[j].queueFamilyIndex
  {
    var g := indices.graphicsFamily.value;
    var p := indices.presentFamily.value;
    var r := if g == p then [QueueCreateInfo(g, 1)]
             else if g < p then [QueueCreateInfo(g, 1), QueueCreateInfo(p, 1)]
             else [QueueCreateInfo(p, 1), QueueCreateInfo(g, 1)];
    assert r[0].queueFamilyIndex in CreateInfoFamilies(r);
    assert r[|r| - 1].queueFamilyIndex in CreateInfoFamilies(r);
    r
  }

  /** The description IsScanResult pins the scan's result down completely, so the
      ensures of FindQueueFamilies is a full specification of the loop. */
  lemma ScanResultIsUnique(families: seq<QueueFamily>, r1: QueueFamilyIndices, r2: QueueFamilyIndices)
    requires IsScanResult(families, r1) && IsScanResult(families, r2)
    ensures r1 == r2
  {
  }

  /** A graphics-only family, then another one, then a present-only family: the
      graphics slot is overwritten by the later index before the scan completes. */
  lemma GraphicsSlotKeepsLastIndexBeforeStop()
    ensures FindQueueFamilies([QueueFamily(1, false), QueueFamily(1, false), QueueFamily(0, true), QueueFamily(1, true)])
            == QueueFamilyIndices(Some(1), Some(2))
  {
  }

  /** The scan stops at the first family that completes the pair, so later families,
      however capable, are never looked at. */
  lemma {:induction false} ScanStopsAtFirstCompletingFamily(families: seq<QueueFamily>, rest: seq<QueueFamily>)
    requires FindQueueFamilies(families).IsComplete()
    ensures FindQueueFamilies(families + rest) == FindQueueFamilies(families)
  {
    var r := FindQueueFamilies(families);
    var all := families + rest;
    var n := ScanLength(families, r);
    assert ScanLength(all, r) == n;
    assert forall j :: 0 <= j < n ==> all[j] == families[j];
    assert IsLastCapable(all, IsGraphicsFamily, r.graphicsFamily, n);
    assert IsLastCapable(all, SupportsPresent, r.presentFamily, n);
    assert !CompleteWithin(all, n - 1);
    assert IsScanResult(all, r);
    ScanResultIsUnique(all, r, FindQueueFamilies(all));
  }

  /** A selected device always has complete queue families, so the .value() calls of
      CreateLogicalDevice, CreateSwapChain and CreateCommandPool never throw. */
  lemma PickedDeviceHasCompleteQueueFamilies(devices: seq<PhysicalDevice>)
    requires PickPhysicalDevice(devices).Picked?
    ensures FindQueueFamilies(PickPhysicalDevice(devices).device.queueFamilies).IsComplete()
    ensures |PickPhysicalDevice(devices).device.support.formats| > 0
    ensures |PickPhysicalDevice(devices).device.support.presentModes| > 0
  {
  }

  /** Extension check and layer check are the same "required is a subset of available" test. */
  lemma SubsetChecksAgree(required: seq<string>, available: seq<string>)
    ensures CheckDeviceExtensionSupport(required, available) == CheckValidationLayerSupport(required, available)
  {
  }
}

=== FILE: frames.dfy ===
/**
 Renderer::DrawFrame as a sequential machine. The CPU side issues Vulkan calls;
 the GPU finishing a submitted frame (and signalling the in-flight fence) is an
 explicit environment event, so CPU/GPU concurrency becomes an interleaving of
 events. A run produces a trace of the calls made and the fence signals seen.
 */
module Frames {
  import opened Vk

  datatype Semaphore = ImageAvailable | RenderFinished

  /** One entry of a frame trace: a Vulkan call made by DrawFrame, the GPU signalling
      the in-flight fence, or the runtime_error thrown after a rejected submit. Every
      QueueSubmit also hands the in-flight fence to the GPU. */
  datatype Entry =
    | WaitForFence
    | ResetFence
    | AcquireNextImage(signal: Semaphore, imageIndex: nat)
    | ResetCommandBuffer
    | RecordCommandBuffer(imageIndex: nat)
    | QueueSubmit(wait: Semaphore, signal: Semaphore, result: VkResult)
    | QueuePresent(wait: Semaphore, imageIndex: nat)
    | GpuSignalsFence
    | Throw

  /** The driver's answers during one DrawFrame: the acquired image index and the
      results of acquire, recording, submit and present. */
  datatype FrameInput = FrameInput(
    imageIndex: nat,
    acquireResult: VkResult,
    recordSucceeds: bool,
    submitResult: VkResult,
    presentResult: VkResult)

  /** The CPU is either free to start a frame or blocked in DrawFrame's fence wait,
      holding the answers the rest of that frame will get. */
  datatype Cpu = Ready | Blocked(pending: FrameInput)

  /** The in-flight fence, the number of submitted frames the GPU has not finished,
      the CPU, and whether the frame in flight is starved: its submit waits on an
      image-available semaphore that no acquire signalled. Vulkan leaves such a submit
      undefined; the model chooses that the GPU never finishes it. */
  datatype FrameState = FrameState(fenceSignalled: bool, inFlight: nat, cpu: Cpu, starved: bool)

  /** Whether vkAcquireNextImageKHR signals its semaphore: only on its success codes
      VK_SUCCESS and VK_SUBOPTIMAL_KHR. VK_NOT_READY, VK_TIMEOUT and the error codes
      leave the semaphore untouched and the image index unset; the model still records
      the frame with the index it is given. */
  predicate AcquireSignals(result: VkResult) {
    result == Success || result == SuboptimalKhr
  }

  /** Update() calls DrawFrame; GpuComplete is the GPU finishing submitted work. */
  datatype Event = Update(input: FrameInput) | GpuComplete

  datatype StepResult = StepResult(state: FrameState, trace: seq<Entry>)

  /** CreateSyncObjects creates the fence signalled, so nothing is in flight and the
      first wait returns at once. */
  const Initial := FrameState(true, 0, Ready, false)

  /** DrawFrame once its fence wait has returned: reset the fence, acquire an image,
      reset and record the command buffer, submit, then present; a rejected submit
      throws before presenting. The acquire, record and present results are not read;
      after a failed acquire the submitted frame is starved. */
  function AfterWait(s: FrameState, input: FrameInput): (r: StepResult)
    requires s.fenceSignalled
    ensures !r.state.fenceSignalled && r.state.cpu.Ready?
    ensures |r.trace| == 6
    ensures r.trace[..4] == [ResetFence, AcquireNextImage(ImageAvailable, input.imageIndex), ResetCommandBuffer,
                             RecordCommandBuffer(input.imageIndex)]
    ensures r.trace[4] == QueueSubmit(ImageAvailable, RenderFinished, input.submitResult)
    ensures QueuePresent(RenderFinished, input.imageIndex) in r.trace <==> input.submitResult == Success
    ensures Throw in r.trace <==> input.submitResult != Success
    ensures r.state.inFlight == s.inFlight + Delta(r.trace[4])
    ensures r.state.starved <==> input.submitResult == Success && !AcquireSignals(input.acquireResult)
  {
    var accepted := input.submitResult == Success;
    var trace := [
      ResetFence,
      AcquireNextImage(ImageAvailable, input.imageIndex),
      ResetCommandBuffer,
      RecordCommandBuffer(input.imageIndex),
      QueueSubmit(ImageAvailable, RenderFinished, input.submitResult),
      if accepted then QueuePresent(RenderFinished, input.imageIndex) else Throw];
    StepResult(FrameState(false, if accepted then s.inFlight + 1 else s.inFlight, Ready,
                          accepted && !AcquireSignals(input.acquireResult)), trace)
  }

  /** One event. An update on a free CPU waits on the fence: it runs the frame if the
      fence is signalled and blocks otherwise. A blocked CPU makes no calls. The GPU
      finishing a frame signals the fence and resumes a blocked frame; a starved frame
      never finishes. */
  function Step(s: FrameState, e: Event): (r: StepResult)
    ensures s.cpu.Blocked? && e.Update? ==> r == StepResult(s, [])
    ensures e.Update? && s.cpu.Ready? ==> |r.trace| > 0 && r.trace[0] == WaitForFence
    ensures e.Update? && s.cpu.Ready? && !s.fenceSignalled ==> r.trace == [WaitForFence] && r.state.cpu == Blocked(e.input)
    ensures e.GpuComplete? && (s.inFlight == 0 || s.starved) ==> r == StepResult(s, [])
    ensures e.GpuComplete? && s.inFlight > 0 && !s.starved ==> |r.trace| > 0 && r.trace[0] == GpuSignalsFence && r.state.cpu.Ready?
    ensures e.Update? && s.cpu.Ready? && s.fenceSignalled ==>
              var frame := AfterWait(s, e.input);
              r == StepResult(frame.state, [WaitForFence] + frame.trace)
    ensures e.GpuComplete? && s.inFlight > 0 && !s.starved && s.cpu.Blocked? ==>
              var frame := AfterWait(FrameState(true, s.inFlight - 1, Ready, false), s.cpu.pending);
              r == StepResult(frame.state, [GpuSignalsFence] + frame.trace)
  {
    match e
    case Update(input) =>
      if s.cpu.Blocked? then StepResult(s, [])
      else if s.fenceSignalled then
        var r := AfterWait(s, input);
        StepResult(r.state, [WaitForFence] + r.trace)
      else StepResult(s.(cpu := Blocked(input)), [WaitForFence])
    case GpuComplete =>
      if s.inFlight == 0 || s.starved then StepResult(s, [])
      else
        var done := FrameState(true, s.inFlight - 1, Ready, false);
        match s.cpu
        case Ready => StepResult(done, [GpuSignalsFence])
        case Blocked(input) =>
          var r := AfterWait(done, input);
          StepResult(r.state, [GpuSignalsFence] + r.trace)
  }

  /** The events of `es` in order, from state `s`. */
  function Run(s: FrameState, es: seq<Event>): (r: StepResult)
    ensures |es| > 0 ==> Run(s, es[..|es| - 1]).trace <= r.trace
    decreases |es|
  {
    if |es| == 0 then StepResult(s, [])
    else
      var before := Run(s, es[..|es| - 1]);
      var last := Step(before.state, es[|es| - 1]);
      StepResult(last.state, before.trace + last.trace)
  }

  // ----- frames in flight -----

  /** How an entry changes the number of frames handed to the GPU and not yet fenced. */
  function Delta(e: Entry): int {
    match e
    case QueueSubmit(_, _, result) => if result == Success then 1 else 0
    case GpuSignalsFence => -1
    case _ => 0
  }

  /** Accepted submits minus GPU fence signals in `t`. */
  function Outstanding(t: seq<Entry>): int {
    if |t| == 0 then 0 else Delta(t[0]) + Outstanding(t[1..])
  }

  /** At every point of `t`, at most one accepted submit is not yet fenced, and the
      GPU never signals more often than work was submitted. */
  predicate AtMostOneInFlight(t: seq<Entry>) {
    forall n :: 0 <= n <= |t| ==> 0 <= Outstanding(t[..n]) <= 1
  }

  /** Starting with `k` frames outstanding, every prefix of `t` keeps the count in [0, 1]. */
  predicate StaysBounded(k: int, t: seq<Entry>)
    decreases |t|
  {
    |t| == 0 || (0 <= k + Delta(t[0]) <= 1 && StaysBounded(k + Delta(t[0]), t[1..]))
  }

  lemma {:induction false} OutstandingAppend(a: seq<Entry>, b: seq<Entry>)
    ensures Outstanding(a + b) == Outstanding(a) + Outstanding(b)
    decreases |a|
  {
    if |a| == 0 {
      assert a + b == b;
    } else {
      assert (a + b)[1..] == a[1..] + b;
      OutstandingAppend(a[1..], b);
    }
  }

  lemma {:induction false} StaysBoundedAppend(k: int, a: seq<Entry>, b: seq<Entry>)
    requires StaysBounded(k, a) && StaysBounded(k + Outstanding(a), b)
    ensures StaysBounded(k, a + b)
    decreases |a|
  {
    if |a| == 0 {
      assert a + b == b;
    } else {
      assert (a + b)[1..] == a[1..] + b;
      StaysBoundedAppend(k + Delta(a[0]), a[1..], b);
    }
  }

  lemma {:induction false} StaysBoundedPrefixes(k: int, t: seq<Entry>)
    requires 0 <= k <= 1 && StaysBounded(k, t)
    ensures forall n :: 0 <= n <= |t| ==> 0 <= k + Outstanding(t[..n]) <= 1
    decreases |t|
  {
    if |t| > 0 {
      StaysBoundedPrefixes(k + Delta(t[0]), t[1..]);
      forall n | 1 <= n <= |t|
        ensures 0 <= k + Outstanding(t[..n]) <= 1
      {
        assert t[..n][1..] == t[1..][..n - 1];
      }
    }
    assert t[..0] == [];
  }

  /** The machine's invariant: at most one frame in flight, a signalled fence means none,
      a starved frame is in flight, and a blocked CPU waits on an unsignalled fence. */
  ghost predicate Inv(s: FrameState) {
    && s.inFlight <= 1
    && (s.starved ==> s.inFlight == 1)
    && (s.fenceSignalled ==> s.inFlight == 0)
    && (s.cpu.Blocked? ==> !s.fenceSignalled)
  }

  lemma AfterWaitKeepsCount(s: FrameState, input: FrameInput)
    requires s.fenceSignalled && s.inFlight == 0
    ensures var r := AfterWait(s, input);
            && Inv(r.state)
            && StaysBounded(0, r.trace)
            && Outstanding(r.trace) == r.state.inFlight
  {
    var t := AfterWait(s, input).trace;
    NoSubmitKeepsCount(0, t[..4]);
    var tail := t[4..];
    assert tail[0] == t[4] && tail[1..] == [t[5]] && tail[1..][1..] == [];
    assert Outstanding([t[5]]) == Delta(t[5]) by { assert [t[5]][1..] == []; }
    assert t == t[..4] + tail;
    StaysBoundedAppend(0, t[..4], tail);
    OutstandingAppend(t[..4], tail);
  }

  lemma {:induction false} NoSubmitKeepsCount(k: int, t: seq<Entry>)
    requires 0 <= k <= 1
    requires forall i :: 0 <= i < |t| ==> !t[i].QueueSubmit? && !t[i].GpuSignalsFence?
    ensures StaysBounded(k, t) && Outstanding(t) == 0
    decreases |t|
  {
    if |t| > 0 {
      NoSubmitKeepsCount(k, t[1..]);
    }
  }

  lemma {:induction false} StepKeepsCount(s: FrameState, e: Event)
    requires Inv(s)
    ensures var r := Step(s, e);
            && Inv(r.state)
            && StaysBounded(s.inFlight, r.trace)
            && Outstanding(r.trace) == r.state.inFlight - s.inFlight
  {
    match e
    case Update(input) => UpdateKeepsCount(s, input);
    case GpuComplete => CompletionKeepsCount(s);
  }

  lemma UpdateKeepsCount(s: FrameState, input: FrameInput)
    requires Inv(s)
    ensures var r := Step(s, Update(input));
            && Inv(r.state)
            && StaysBounded(s.inFlight, r.trace)
            && Outstanding(r.trace) == r.state.inFlight - s.inFlight
  {
    if s.cpu.Ready? && s.fenceSignalled {
      AfterWaitKeepsCount(s, input);
      var r := AfterWait(s, input);
      assert ([WaitForFence] + r.trace)[1..] == r.trace;
    }
  }

  lemma CompletionKeepsCount(s: FrameState)
    requires Inv(s)
    ensures var r := Step(s, GpuComplete);
            && Inv(r.state)
            && StaysBounded(s.inFlight, r.trace)
            && Outstanding(r.trace) == r.state.inFlight - s.inFlight
  {
    if s.inFlight != 0 && !s.starved && s.cpu.Blocked? {
      var done := FrameState(true, s.inFlight - 1, Ready, false);
      AfterWaitKeepsCount(done, s.cpu.pending);
      var r := AfterWait(done, s.cpu.pending);
      assert Step(s, GpuComplete) == StepResult(r.state, [GpuSignalsFence] + r.trace);
      SignalBeforeFrame(r.trace);
    }
  }

  /** A fence signal that finishes the one frame in flight, followed by a trace that
      stays bounded from zero, stays bounded from one. */
  lemma SignalBeforeFrame(t: seq<Entry>)
    requires StaysBounded(0, t)
    ensures StaysBounded(1, [GpuSignalsFence] + t)
    ensures Outstanding([GpuSignalsFence] + t) == Outstanding(t) - 1
  {
    assert ([GpuSignalsFence] + t)[1..] == t;
  }

  /** Any interleaving of updates and GPU completions from the initial state keeps at
      most one submitted frame un-fenced at every point of its trace, and the count
      of accepted submits minus fence signals is exactly the frames in flight. */
  lemma {:induction false} AtMostOneFrameInFlight(es: seq<Event>)
    ensures Inv(Run(Initial, es).state)
    ensures Outstanding(Run(Initial, es).trace) == Run(Initial, es).state.inFlight
    ensures AtMostOneInFlight(Run(Initial, es).trace)
  {
    RunKeepsCount(es);
    StaysBoundedPrefixes(0, Run(Initial, es).trace);
  }

  lemma {:induction false} RunKeepsCount(es: seq<Event>)
    ensures Inv(Run(Initial, es).state)
    ensures Outstanding(Run(Initial, es).trace) == Run(Initial, es).state.inFlight
    ensures StaysBounded(0, Run(Initial, es).trace)
    decreases |es|
  {
    if |es| > 0 {
      RunKeepsCount(es[..|es| - 1]);
      ExtendKeepsCount(Run(Initial, es[..|es| - 1]), es[|es| - 1]);
    }
  }

  /** One more event keeps the running count exact and bounded. */
  lemma ExtendKeepsCount(before: StepResult, e: Event)
    requires Inv(before.state) && Outstanding(before.trace) == before.state.inFlight
    requires StaysBounded(0, before.trace)
    ensures var last := Step(before.state, e);
            && Inv(last.state)
            && Outstanding(before.trace + last.trace) == last.state.inFlight
            && StaysBounded(0, before.trace + last.trace)
  {
    var last := Step(before.state, e);
    StepKeepsCount(before.state, e);
    OutstandingAppend(before.trace, last.trace);
    StaysBoundedAppend(0, before.trace, last.trace);
  }

  // ----- call order -----

  /** The first DrawFrame does not block: its fence was created signalled, so it runs
      the whole call sequence at once. */
  lemma FirstFrameDoesNotBlock(input: FrameInput)
    ensures Step(Initial, Update(input)).state.cpu.Ready?
    ensures Step(Initial, Update(input)).trace ==
              [WaitForFence, ResetFence, AcquireNextImage(ImageAvailable, input.imageIndex), ResetCommandBuffer,
               RecordCommandBuffer(input.imageIndex), QueueSubmit(ImageAvailable, RenderFinished, input.submitResult)]
              + (if input.submitResult == Success then [QueuePresent(RenderFinished, input.imageIndex)] else [Throw])
  {
  }

  /** Within a trace, every submit waits on the semaphore an acquire three entries back
      signalled, for the image the preceding record used; every present directly follows
      an accepted submit, waits on the semaphore that submit signals, and shows the image
      that was recorded. */
  predicate Chained(t: seq<Entry>) {
    && (forall i :: 0 <= i < |t| && t[i].QueueSubmit? ==>
          && 3 <= i
          && t[i - 1].RecordCommandBuffer?
          && t[i - 3] == AcquireNextImage(t[i].wait, t[i - 1].imageIndex))
    && (forall i :: 0 <= i < |t| && t[i].QueuePresent? ==>
          && 2 <= i
          && t[i - 1] == QueueSubmit(ImageAvailable, t[i].wait, Success)
          && t[i - 2] == RecordCommandBuffer(t[i].imageIndex))
  }

  lemma ChainedAppend(a: seq<Entry>, b: seq<Entry>)
    requires Chained(a) && Chained(b)
    ensures Chained(a + b)
  {
  }

  lemma AfterWaitIsChained(s: FrameState, input: FrameInput)
    requires s.fenceSignalled
    ensures Chained(AfterWait(s, input).trace)
  {
  }

  lemma StepIsChained(s: FrameState, e: Event)
    ensures Chained(Step(s, e).trace)
  {
    match e
    case Update(input) =>
      if s.cpu.Ready? && s.fenceSignalled {
        AfterWaitIsChained(s, input);
        ChainedAppend([WaitForFence], AfterWait(s, input).trace);
      }
    case GpuComplete =>
      if s.inFlight != 0 && !s.starved && s.cpu.Blocked? {
        var done := FrameState(true, s.inFlight - 1, Ready, false);
        AfterWaitIsChained(done, s.cpu.pending);
        ChainedAppend([GpuSignalsFence], AfterWait(done, s.cpu.pending).trace);
      }
  }

  /** Every run's trace keeps DrawFrame's call order: acquire, record, submit, present,
      with the semaphores chained and the present only after an accepted submit. */
  lemma {:induction false} RunIsChained(s: FrameState, es: seq<Event>)
    ensures Chained(Run(s, es).trace)
    decreases |es|
  {
    if |es| > 0 {
      var before := Run(s, es[..|es| - 1]);
      RunIsChained(s, es[..|es| - 1]);
      StepIsChained(before.state, es[|es| - 1]);
      ChainedAppend(before.trace, Step(before.state, es[|es| - 1]).trace);
    }
  }

  /** The calls a frame makes do not depend on what acquire, recording or present
      report: changing any of those answers changes neither the calls made nor the
      resulting fence and in-flight state. A command buffer whose recording failed is
      still submitted; Vulkan leaves that undefined, and the model chooses that the GPU
      finishes such a frame like any other, so once the fence wait returns the record
      and present results leave no trace in the model. A failed acquire shows only
      later, as a frame modelled as never finishing. */
  lemma UncheckedResultsAreIgnored(s: FrameState, input: FrameInput, acquire: VkResult, record: bool, present: VkResult)
    requires s.cpu.Ready?
    ensures s.fenceSignalled ==>
              Step(s, Update(input)) == Step(s, Update(input.(recordSucceeds := record, presentResult := present)))
    ensures var other := input.(acquireResult := acquire, recordSucceeds := record, presentResult := present);
            && Step(s, Update(input)).trace == Step(s, Update(other)).trace
            && Step(s, Update(input)).state.fenceSignalled == Step(s, Update(other)).state.fenceSignalled
            && Step(s, Update(input)).state.inFlight == Step(s, Update(other)).state.inFlight
  {
  }

  // ----- a rejected submit -----

  /** A rejected submit throws after the fence was reset and without handing the fence
      to the GPU: the fence stays unsignalled with nothing in flight. */
  lemma RejectedSubmitLeavesFenceUnsignalled(s: FrameState, input: FrameInput)
    requires Inv(s) && s.cpu.Ready? && s.fenceSignalled && input.submitResult != Success
    ensures var r := Step(s, Update(input));
            && !r.state.fenceSignalled && r.state.inFlight == 0
            && Throw in r.trace
            && forall i :: 0 <= i < |r.trace| ==> !r.trace[i].QueuePresent?
  {
  }

  /** A CPU blocked on a fence no submitted work will signal stays blocked and makes
      no further calls, whatever events follow. */
  lemma {:induction false} StalledFrameNeverResumes(s: FrameState, es: seq<Event>)
    requires s.cpu.Blocked? && !s.fenceSignalled && (s.inFlight == 0 || s.starved)
    ensures Run(s, es) == StepResult(s, [])
    decreases |es|
  {
    if |es| > 0 {
      StalledFrameNeverResumes(s, es[..|es| - 1]);
    }
  }

  /** If the caller catches the exception of a rejected first submit and keeps drawing,
      the next frame waits forever. */
  lemma RejectedSubmitStallsTheNextFrame(first: FrameInput, next: FrameInput, es: seq<Event>)
    requires first.submitResult != Success
    ensures var stalled := Run(Initial, [Update(first), Update(next)]).state;
            stalled.cpu.Blocked? && Run(stalled, es).trace == []
  {
    var es2 := [Update(first), Update(next)];
    assert es2[..1] == [Update(first)] && [Update(first)][..0] == [];
    assert Run(Initial, []).state == Initial;
    assert Step(Initial, Update(first)).state == FrameState(false, 0, Ready, false);
    var afterFirst := Run(Initial, [Update(first)]).state;
    assert afterFirst == FrameState(false, 0, Ready, false);
    var stalled := Run(Initial, es2).state;
    assert stalled == FrameState(false, 0, Blocked(next), false);
    StalledFrameNeverResumes(stalled, es);
  }

  /** A failed first acquire leaves the image-available semaphore unsignalled. An
      accepted submit that waits on it is modelled as never finishing, so it never
      signals the fence: the next frame waits forever, whatever the GPU does meanwhile. */
  lemma FailedAcquireStallsTheNextFrame(first: FrameInput, next: FrameInput, es: seq<Event>)
    requires !AcquireSignals(first.acquireResult) && first.submitResult == Success
    ensures var stalled := Run(Initial, [Update(first), Update(next)]).state;
            stalled.cpu.Blocked? && stalled.starved && Run(stalled, es).trace == []
  {
    var es2 := [Update(first), Update(next)];
    assert es2[..1] == [Update(first)] && [Update(first)][..0] == [];
    assert Run(Initial, []).state == Initial;
    var afterFirst := Run(Initial, [Update(first)]).state;
    assert afterFirst == FrameState(false, 1, Ready, true);
    var stalled := Run(Initial, es2).state;
    assert stalled == FrameState(false, 1, Blocked(next), true);
    StalledFrameNeverResumes(stalled, es);
  }

  /** While every submit is accepted, the fence is unsignalled exactly while a frame is
      in flight; so a blocked CPU always has a frame in flight, and unless that frame is
      starved its completion resumes the CPU. While every acquire also signals, no frame
      is starved. */
  lemma {:induction false} AcceptedSubmitsKeepFenceExact(es: seq<Event>)
    requires forall i :: 0 <= i < |es| && es[i].Update? ==> es[i].input.submitResult == Success
    ensures Run(Initial, es).state.inFlight == if Run(Initial, es).state.fenceSignalled then 0 else 1
    ensures Run(Initial, es).state.cpu.Blocked? ==> Run(Initial, es).state.cpu.pending.submitResult == Success
    ensures Run(Initial, es).state.cpu.Blocked? && !Run(Initial, es).state.starved ==>
              Step(Run(Initial, es).state, GpuComplete).state.cpu.Ready?
    ensures (forall i :: 0 <= i < |es| && es[i].Update? ==> AcquireSignals(es[i].input.acquireResult)) ==>
              !Run(Initial, es).state.starved
  {
    AcceptedRun(es, forall i :: 0 <= i < |es| && es[i].Update? ==> AcquireSignals(es[i].input.acquireResult));
  }

  /** The state facts AcceptedSubmitsKeepFenceExact keeps; with `signalled`, also that
      nothing is starved and a pending frame's acquire will signal. */
  ghost predicate Accepted(st: FrameState, signalled: bool) {
    && Inv(st)
    && st.inFlight == (if st.fenceSignalled then 0 else 1)
    && (st.cpu.Blocked? ==> st.cpu.pending.submitResult == Success)
    && (signalled ==> !st.starved && (st.cpu.Blocked? ==> AcquireSignals(st.cpu.pending.acquireResult)))
  }

  lemma {:induction false} AcceptedRun(es: seq<Event>, signalled: bool)
    requires forall i :: 0 <= i < |es| && es[i].Update? ==> es[i].input.submitResult == Success
    requires signalled ==> forall i :: 0 <= i < |es| && es[i].Update? ==> AcquireSignals(es[i].input.acquireResult)
    ensures Accepted(Run(Initial, es).state, signalled)
    decreases |es|
  {
    if |es| > 0 {
      var front := es[..|es| - 1];
      assert forall i :: 0 <= i < |front| ==> front[i] == es[i];
      AcceptedRun(front, signalled);
      AcceptedStep(Run(Initial, front).state, es[|es| - 1], signalled);
    }
  }

  lemma AcceptedStep(st: FrameState, e: Event, signalled: bool)
    requires Accepted(st, signalled)
    requires e.Update? ==> e.input.submitResult == Success
    requires signalled && e.Update? ==> AcquireSignals(e.input.acquireResult)
    ensures Accepted(Step(st, e).state, signalled)
  {
    StepKeepsCount(st, e);
  }
}

=== FILE: search.dfy ===
/**
 The "scan in order, stop at the first match" loop that the renderer writes out
 several times (surface formats, present modes, validation layers, devices).
 */
module Search {

  datatype Option<+T> = None | Some(value: T)

  /** True if some element of `s` satisfies `p`. */
  predicate Exists<T>(s: seq<T>, p: T -> bool) {
    exists i :: 0 <= i < |s| && p(s[i])
  }

  /** Index of the first element of `s[from..]` that satisfies `p`, if any. */
  function FirstIndexFrom<T>(s: seq<T>, p: T -> bool, from: nat): (r: Option<nat>)
    requires from <= |s|
    ensures r.Some? ==> from <= r.value < |s| && p(s[r.value])
    ensures r.Some? ==> forall j :: from <= j < r.value ==> !p(s[j])
    ensures r.None? ==> forall j :: from <= j < |s| ==> !p(s[j])
    decreases |s| - from
  {
    if from == |s| then None
    else if p(s[from]) then Some(from)
    else FirstIndexFrom(s, p, from + 1)
  }

  /** Index of the first element of `s` that satisfies `p`, if any. */
  function FirstIndex<T>(s: seq<T>, p: T -> bool): (r: Option<nat>)
    ensures r.Some? <==> Exists(s, p)
    ensures r.Some? ==> r.value < |s| && p(s[r.value])
    ensures r.Some? ==> forall j :: 0 <= j < r.value ==> !p(s[j])
  {
    FirstIndexFrom(s, p, 0)
  }

  /** Linear membership test with element equality. */
  function Contains<T(==)>(s: seq<T>, x: T): (b: bool)
    ensures b <==> x in s
  {
    FirstIndex(s, y => y == x).Some?
  }
}

=== FILE: startup.dfy ===
/**
 Renderer::Init: a null-window check followed by a fixed, fail-fast sequence of
 creation steps. A step's outcome comes from the modelled decision logic where
 the renderer decides it (layer check, messenger entry point, native window,
 device selection, shader modules) and from the driver otherwise.
 */
module Startup {
  import opened Vk
  import opened Search
  import Devices
  import Debug

  datatype InitStep =
    | CreateInstance
    | SetupDebugMessenger
    | CreateSurface
    | PickPhysicalDevice
    | CreateLogicalDevice
    | CreateSwapChain
    | CreateImageViews
    | CreateRenderPass
    | CreateGraphicsPipeline
    | CreateFrameBuffers
    | CreateCommandPool
    | CreateCommandBuffer
    | CreateSyncObjects

  /** The steps Init runs, in order; the debug messenger only when validation layers
      are enabled (m_bEnableValidationLayers, true iff TPS_DEBUG is defined). */
  function InitPlan(validation: bool): (plan: seq<InitStep>)
    ensures SetupDebugMessenger in plan <==> validation
    ensures |plan| == if validation then 13 else 12
    ensures plan[0] == CreateInstance && plan[|plan| - 1] == CreateSyncObjects
  {
    [CreateInstance]
    + (if validation then [SetupDebugMessenger] else [])
    + [CreateSurface, PickPhysicalDevice, CreateLogicalDevice, CreateSwapChain, CreateImageViews,
       CreateRenderPass, CreateGraphicsPipeline, CreateFrameBuffers, CreateCommandPool,
       CreateCommandBuffer, CreateSyncObjects]
  }

  /** The application window: whether GetNativeWindow() is non-null. */
  datatype Window = Window(hasNativeWindow: bool)

  /** Everything Init consults: the window pointer (None = null), the build flag, the
      layer and device enumerations, the debug-messenger entry point, whether both
      shader modules can be created, and the verdict of the remaining driver calls. */
  datatype Environment = Environment(
    window: Option<Window>,
    validation: bool,
    desiredLayer: string,
    availableLayers: seq<string>,
    messengerEntry: Debug.EntryPoint,
    devices: seq<PhysicalDevice>,
    shaderModulesCreated: bool,
    driverSucceeds: InitStep -> bool)

  /** How a creation step ends: it returns true, returns false, or throws. */
  datatype StepOutcome = Succeeded | Failed | Threw

  function FromDriver(env: Environment, step: InitStep): StepOutcome {
    if env.driverSucceeds(step) then Succeeded else Failed
  }

  /** The handle the driver hands out for the debug messenger; its value does not
      affect whether setup succeeds. */
  const MessengerHandle: Vk.LiveHandle := 1

  /** The outcome of one creation step. */
  function RunStep(env: Environment, step: InitStep): (r: StepOutcome)
    ensures r == Threw <==> step == CreateGraphicsPipeline && !env.shaderModulesCreated
    ensures step == CreateInstance ==>
              (r == Succeeded <==> (!env.validation || env.desiredLayer in env.availableLayers) && env.driverSucceeds(step))
    ensures step == SetupDebugMessenger ==> (r == Succeeded <==> env.messengerEntry == Debug.Loaded(Vk.Success))
    ensures step == CreateSurface ==>
              (r == Succeeded <==> env.window.Some? && env.window.value.hasNativeWindow && env.driverSucceeds(step))
    ensures step == CreateGraphicsPipeline && env.shaderModulesCreated ==> (r == Succeeded <==> env.driverSucceeds(step))
    ensures step == PickPhysicalDevice ==> (r == Succeeded <==> Exists(env.devices, Devices.IsDeviceSuitable))
    ensures step !in {CreateInstance, SetupDebugMessenger, CreateSurface, PickPhysicalDevice, CreateGraphicsPipeline} ==>
              (r == Succeeded <==> env.driverSucceeds(step))
  {
    match step
    case CreateInstance =>
      if env.validation && !Devices.CheckValidationLayerSupport([env.desiredLayer], env.availableLayers) then Failed
      else FromDriver(env, step)
    case SetupDebugMessenger =>
      if Debug.CreateDebugUtilsMessengerEXT(env.messengerEntry, {}, MessengerHandle).result == Vk.Success then Succeeded
      else Failed
    case CreateSurface =>
      if env.window.None? || !env.window.value.hasNativeWindow then Failed else FromDriver(env, step)
    case PickPhysicalDevice =>
      if Devices.PickPhysicalDevice(env.devices).Picked? then Succeeded else Failed
    case CreateGraphicsPipeline =>
      // CreateShaderModule throws instead of returning false
      if !env.shaderModulesCreated then Threw else FromDriver(env, step)
    case _ => FromDriver(env, step)
  }

  /** What Init does to its caller: return true or false, or let an exception out. */
  datatype InitResult = Returned(ok: bool) | Raised

  /** Init's result together with the steps it started, in order. */
  datatype InitReport = InitReport(result: InitResult, attempted: seq<InitStep>)

  predicate AllSucceed(env: Environment, steps: seq<InitStep>) {
    forall k :: 0 <= k < |steps| ==> RunStep(env, steps[k]) == Succeeded
  }

  /** The step sequence from `plan[i]` on, the steps before it having succeeded. */
  function RunPlan(env: Environment, plan: seq<InitStep>, i: nat): (r: InitReport)
    requires i <= |plan|
    requires AllSucceed(env, plan[..i])
    ensures i <= |r.attempted| <= |plan| && r.attempted == plan[..|r.attempted|]
    ensures r.result == Returned(true) <==> AllSucceed(env, plan)
    ensures r.result == Returned(true) ==> r.attempted == plan
    ensures r.result != Returned(true) ==>
              && 0 < |r.attempted|
              && AllSucceed(env, r.attempted[..|r.attempted| - 1])
              && RunStep(env, r.attempted[|r.attempted| - 1]) == (if r.result == Raised then Threw else Failed)
    decreases |plan| - i
  {
    if i == |plan| then
      assert plan[..i] == plan;
      InitReport(Returned(true), plan)
    else
      match RunStep(env, plan[i])
      case Succeeded =>
        assert plan[..i + 1] == plan[..i] + [plan[i]];
        RunPlan(env, plan, i + 1)
      case Failed =>
        assert plan[..i + 1][..i] == plan[..i];
        InitReport(Returned(false), plan[..i + 1])
      case Threw =>
        assert plan[..i + 1][..i] == plan[..i];
        InitReport(Raised, plan[..i + 1])
  }

  /** Renderer::Init: false at once on a null window; otherwise the plan's steps in
      order, stopping at the first one that does not succeed; true only when all do. */
  function Init(env: Environment): (r: InitReport)
    ensures env.window.None? ==> r == InitReport(Returned(false), [])
    ensures env.window.Some? ==>
              0 < |r.attempted| <= |InitPlan(env.validation)|
              && r.attempted == InitPlan(env.validation)[..|r.attempted|]
    ensures r.result == Returned(true) <==> env.window.Some? && AllSucceed(env, InitPlan(env.validation))
    ensures r.result == Returned(true) ==> r.attempted == InitPlan(env.validation)
    ensures env.window.Some? && r.result != Returned(true) ==>
              && AllSucceed(env, r.attempted[..|r.attempted| - 1])
              && RunStep(env, r.attempted[|r.attempted| - 1]) == (if r.result == Raised then Threw else Failed)
  {
    if env.window.None? then InitReport(Returned(false), [])
    else RunPlan(env, InitPlan(env.validation), 0)
  }

  /** A successful Init has selected a suitable device whose queue families are
      complete and whose format and present-mode lists are non-empty, so the later
      steps' .value() and formats[0] accesses are safe. */
  lemma {:induction false} SuccessfulInitSelectedADevice(env: Environment)
    requires Init(env).result == Returned(true)
    ensures Devices.PickPhysicalDevice(env.devices).Picked?
    ensures Devices.IsDeviceSuitable(Devices.PickPhysicalDevice(env.devices).device)
    ensures Devices.FindQueueFamilies(Devices.PickPhysicalDevice(env.devices).device.queueFamilies).IsComplete()
    ensures |Devices.PickPhysicalDevice(env.devices).device.support.formats| > 0
  {
    var plan := InitPlan(env.validation);
    var k := if env.validation then 3 else 2;
    assert plan[k] == PickPhysicalDevice;
    assert RunStep(env, plan[k]) == Succeeded;
    Devices.PickedDeviceHasCompleteQueueFamilies(env.devices);
  }

  /** With validation enabled and the desired layer missing, Init attempts only the
      instance and returns false. */
  lemma MissingLayerStopsAtInstance(env: Environment)
    requires env.window.Some? && env.validation
    requires env.desiredLayer !in env.availableLayers
    ensures Init(env) == InitReport(Returned(false), [CreateInstance])
  {
  }

  /** A missing shader module makes Init throw out of CreateGraphicsPipeline once every
      earlier step has succeeded, instead of returning false; no later step runs. */
  lemma {:induction false} ShaderFailureThrows(env: Environment)
    requires env.window.Some? && !env.shaderModulesCreated
    requires AllSucceed(env, InitPlan(env.validation)[..if env.validation then 8 else 7])
    ensures Init(env) == InitReport(Raised, InitPlan(env.validation)[..if env.validation then 9 else 8])
  {
    var plan := InitPlan(env.validation);
    var k := if env.validation then 8 else 7;
    assert plan[k] == CreateGraphicsPipeline;
    assert RunStep(env, plan[k]) == Threw;
    assert !AllSucceed(env, plan);
    var r := Init(env);
    var n := |r.attempted|;
    assert r.attempted == plan[..n];
    assert RunStep(env, r.attempted[n - 1]) != Succeeded;
    assert n - 1 >= k by {
      assert forall i :: 0 <= i < k ==> RunStep(env, plan[i]) == Succeeded by {
        assert forall i :: 0 <= i < k ==> plan[..k][i] == plan[i];
      }
    }
    assert n - 1 <= k by {
      assert forall i :: 0 <= i < n - 1 ==> RunStep(env, plan[i]) == Succeeded by {
        assert forall i :: 0 <= i < n - 1 ==> r.attempted[..n - 1][i] == plan[i];
      }
    }
    assert r.attempted == plan[..k + 1];
  }


  /** The objects of a Vulkan renderer; images are indexed by their swapchain position. */
  datatype Object =
    | Instance
    | DebugMessenger
    | Surface
    | Device
    | Swapchain
    | SwapchainImage(index: nat)
    | ImageView(index: nat)
    | RenderPass
    | PipelineLayout
    | Pipeline
    | Framebuffer(index: nat)
    | CommandPool
    | CommandBuffer
    | ImageAvailableSemaphore
    | RenderFinishedSemaphore
    | InFlightFence

  /** The objects Init makes once per swapchain image. */
  datatype PerImage = ImageOf | ViewOf | FramebufferOf

  function ForImage(kind: PerImage, i: nat): Object {
    match kind
    case ImageOf => SwapchainImage(i)
    case ViewOf => ImageView(i)
    case FramebufferOf => Framebuffer(i)
  }

  /** One object of the given kind per image, for images 0, 1, ..., `count` - 1. */
  function ForEachImage(kind: PerImage, count: nat): (r: seq<Object>)
    ensures |r| == count
    ensures forall i :: 0 <= i < count ==> r[i] == ForImage(kind, i)
  {
    if count == 0 then [] else ForEachImage(kind, count - 1) + [ForImage(kind, count - 1)]
  }

  /** The objects a successful step creates or obtains, in creation order, for a
      swapchain that hands back `imageCount` images (shader modules are destroyed
      inside CreateGraphicsPipeline and do not outlive it). */
  function Creates(step: InitStep, imageCount: nat): seq<Object> {
    match step
    case CreateInstance => [Instance]
    case SetupDebugMessenger => [DebugMessenger]
    case CreateSurface => [Surface]
    case PickPhysicalDevice => []
    case CreateLogicalDevice => [Device]
    case CreateSwapChain => [Swapchain] + ForEachImage(ImageOf, imageCount)
    case CreateImageViews => ForEachImage(ViewOf, imageCount)
    case CreateRenderPass => [RenderPass]
    case CreateGraphicsPipeline => [PipelineLayout, Pipeline]
    case CreateFrameBuffers => ForEachImage(FramebufferOf, imageCount)
    case CreateCommandPool => [CommandPool]
    case CreateCommandBuffer => [CommandBuffer]
    case CreateSyncObjects => [ImageAvailableSemaphore, RenderFinishedSemaphore, InFlightFence]
  }

  /** Every object the given steps create, in creation order. */
  function CreationOrder(steps: seq<InitStep>, imageCount: nat): seq<Object> {
    if |steps| == 0 then [] else CreationOrder(steps[..|steps| - 1], imageCount) + Creates(steps[|steps| - 1], imageCount)
  }

  /** An object is among what the given steps create iff one of the steps creates it. */
  lemma {:induction false} InCreationOrder(steps: seq<InitStep>, imageCount: nat, o: Object)
    ensures o in CreationOrder(steps, imageCount) <==>
              exists k :: 0 <= k < |steps| && o in Creates(steps[k], imageCount)
    decreases |steps|
  {
    if |steps| > 0 {
      var front := steps[..|steps| - 1];
      InCreationOrder(front, imageCount, o);
      if o in CreationOrder(front, imageCount) {
        var k :| 0 <= k < |front| && o in Creates(front[k], imageCount);
        assert steps[k] == front[k];
      }
      if exists k :: 0 <= k < |steps| && o in Creates(steps[k], imageCount) {
        var k :| 0 <= k < |steps| && o in Creates(steps[k], imageCount);
        if k < |front| {
          assert front[k] == steps[k];
        }
      }
    }
  }

  /** The objects a successful Init leaves behind: one instance, surface, device,
      swapchain, render pass, pipeline layout and pipeline, command pool and buffer,
      two semaphores and a fence; a debug messenger with validation layers; and one
      swapchain image, view and framebuffer per image. */
  predicate CreatedByInit(validation: bool, imageCount: nat, o: Object) {
    match o
    case DebugMessenger => validation
    case SwapchainImage(i) => i < imageCount
    case ImageView(i) => i < imageCount
    case Framebuffer(i) => i < imageCount
    case _ => true
  }

  /** The Init step that makes each object. */
  function CreatingStep(o: Object): InitStep {
    match o
    case Instance => CreateInstance
    case DebugMessenger => SetupDebugMessenger
    case Surface => CreateSurface
    case Device => CreateLogicalDevice
    case Swapchain => CreateSwapChain
    case SwapchainImage(_) => CreateSwapChain
    case ImageView(_) => CreateImageViews
    case RenderPass => CreateRenderPass
    case PipelineLayout => CreateGraphicsPipeline
    case Pipeline => CreateGraphicsPipeline
    case Framebuffer(_) => CreateFrameBuffers
    case CommandPool => CreateCommandPool
    case CommandBuffer => CreateCommandBuffer
    case ImageAvailableSemaphore => CreateSyncObjects
    case RenderFinishedSemaphore => CreateSyncObjects
    case InFlightFence => CreateSyncObjects
  }

  lemma CreatedByItsStep(imageCount: nat, o: Object, step: InitStep)
    ensures o in Creates(step, imageCount) <==> step == CreatingStep(o) && CreatedByInit(true, imageCount, o)
  {
    match step
    case CreateSwapChain => InEachImage(ImageOf, imageCount, o);
    case CreateImageViews => InEachImage(ViewOf, imageCount, o);
    case CreateFrameBuffers => InEachImage(FramebufferOf, imageCount, o);
    case _ => CreatedByFixedStep(imageCount, o, step);
  }

  /** The same for the steps that create a fixed set of objects. */
  lemma CreatedByFixedStep(imageCount: nat, o: Object, step: InitStep)
    requires !step.CreateSwapChain? && !step.CreateImageViews? && !step.CreateFrameBuffers?
    ensures o in Creates(step, imageCount) <==> step == CreatingStep(o) && CreatedByInit(true, imageCount, o)
  {
  }

  /** `o` is the object of the given per-image kind for an image below `count`. */
  predicate OfImageBelow(kind: PerImage, count: nat, o: Object) {
    match o
    case SwapchainImage(i) => kind == ImageOf && i < count
    case ImageView(i) => kind == ViewOf && i < count
    case Framebuffer(i) => kind == FramebufferOf && i < count
    case _ => false
  }

  /** The objects of one per-image kind are exactly those of images below `count`. */
  lemma InEachImage(kind: PerImage, count: nat, o: Object)
    ensures o in ForEachImage(kind, count) <==> OfImageBelow(kind, count, o)
  {
    var r := ForEachImage(kind, count);
    if o in r {
      var j :| 0 <= j < |r| && r[j] == o;
      assert o == ForImage(kind, j);
    }
    if OfImageBelow(kind, count, o) {
      assert r[o.index] == o;
    }
  }

  /** Init's plan holds every step, save the debug messenger without validation. */
  lemma PlanHoldsEveryStep(validation: bool, step: InitStep)
    ensures step in InitPlan(validation) <==> step != SetupDebugMessenger || validation
  {
  }

  lemma {:induction false} InitCreatesListed(validation: bool, imageCount: nat, o: Object)
    requires CreatedByInit(validation, imageCount, o)
    ensures o in CreationOrder(InitPlan(validation), imageCount)
  {
    var plan := InitPlan(validation);
    var step := CreatingStep(o);
    PlanHoldsEveryStep(validation, step);
    var k :| 0 <= k < |plan| && plan[k] == step;
    CreatedByItsStep(imageCount, o, plan[k]);
    InCreationOrder(plan, imageCount, o);
  }

  lemma {:induction false} InitCreatesOnlyListed(validation: bool, imageCount: nat, o: Object)
    requires o in CreationOrder(InitPlan(validation), imageCount)
    ensures CreatedByInit(validation, imageCount, o)
  {
    var plan := InitPlan(validation);
    InCreationOrder(plan, imageCount, o);
    var k :| 0 <= k < |plan| && o in Creates(plan[k], imageCount);
    CreatedByItsStep(imageCount, o, plan[k]);
    PlanHoldsEveryStep(validation, plan[k]);
    assert plan[k] in plan;
  }

  /** A successful Init creates exactly the objects CreatedByInit lists. */
  lemma InitCreatesExactly(validation: bool, imageCount: nat, o: Object)
    ensures o in CreationOrder(InitPlan(validation), imageCount) <==> CreatedByInit(validation, imageCount, o)
  {
    if CreatedByInit(validation, imageCount, o) {
      InitCreatesListed(validation, imageCount, o);
    }
    if o in CreationOrder(InitPlan(validation), imageCount) {
      InitCreatesOnlyListed(validation, imageCount, o);
    }
  }
}

=== FILE: swapchain.dfy ===
/**
 Swapchain negotiation: the surface-format, present-mode and extent choices,
 the requested image count, and the image-sharing mode, as CreateSwapChain
 combines them into one VkSwapchainCreateInfoKHR.
 */
module Swapchain {
  import opened Vk
  import opened Search
  import opened Devices

  /** The preferred surface format: 8-bit BGRA with an sRGB-nonlinear colour space. */
  const PreferredFormat: SurfaceFormat := SurfaceFormat(FormatB8G8R8A8Srgb, ColorSpaceSrgbNonlinear)

  predicate IsPreferredFormat(f: SurfaceFormat) {
    f.format == FormatB8G8R8A8Srgb && f.colorSpace == ColorSpaceSrgbNonlinear
  }

  /** ChooseSwapSurfaceFormat: the first preferred entry, else element 0 (the list must
      not be empty: indexing an empty std::vector is undefined behaviour). */
  function ChooseSwapSurfaceFormat(availableFormats: seq<SurfaceFormat>): (r: SurfaceFormat)
    requires |availableFormats| > 0
    ensures r in availableFormats
    ensures Exists(availableFormats, IsPreferredFormat) ==> r == PreferredFormat
    ensures !Exists(availableFormats, IsPreferredFormat) ==> r == availableFormats[0]
  {
    match FirstIndex(availableFormats, IsPreferredFormat)
    case Some(i) => availableFormats[i]
    case None => availableFormats[0]
  }

  predicate IsMailbox(m: PresentMode) {
    m == PresentModeMailbox
  }

  /** ChooseSwapPresentMode: the first MAILBOX entry, else FIFO, which the Vulkan
      specification guarantees every surface supports, so it is not looked up. */
  function ChooseSwapPresentMode(availablePresentModes: seq<PresentMode>): (r: PresentMode)
    ensures r == PresentModeMailbox <==> PresentModeMailbox in availablePresentModes
    ensures r != PresentModeMailbox ==> r == PresentModeFifo
  {
    match FirstIndex(availablePresentModes, IsMailbox)
    case Some(i) => availablePresentModes[i]
    case None => PresentModeFifo
  }

  /** Distance between two integers. */
  function Dist(a: int, b: int): nat {
    if a < b then b - a else a - b
  }

  /** std::clamp: `v < lo ? lo : hi < v ? hi : v`, which is undefined unless lo <= hi. */
  function Clamp(v: U32, lo: U32, hi: U32): (r: U32)
    requires lo <= hi
    ensures lo <= r <= hi
    ensures forall x :: lo <= x <= hi ==> Dist(r, v) <= Dist(x, v)
  {
    if v < lo then lo else if hi < v then hi else v
  }

  /** The surface leaves the extent to the swapchain: currentExtent.width is 0xFFFFFFFF. */
  predicate IsUndefinedExtent(capabilities: SurfaceCapabilities) {
    capabilities.currentExtent.width == Uint32Max
  }

  predicate ExtentBoundsOrdered(capabilities: SurfaceCapabilities) {
    && capabilities.minImageExtent.width <= capabilities.maxImageExtent.width
    && capabilities.minImageExtent.height <= capabilities.maxImageExtent.height
  }

  predicate WithinExtentBounds(e: Extent2D, capabilities: SurfaceCapabilities) {
    && capabilities.minImageExtent.width <= e.width <= capabilities.maxImageExtent.width
    && capabilities.minImageExtent.height <= e.height <= capabilities.maxImageExtent.height
  }

  /** The drawable size after the C++ `static_cast<uint32_t>`. */
  function DrawableExtent(drawable: DrawableSize): Extent2D {
    Extent2D(ToU32(drawable.width), ToU32(drawable.height))
  }

  /** ChooseSwapExtent: the current extent verbatim unless its width is the sentinel;
      otherwise the drawable pixel size clamped component-wise into the image-extent
      bounds. Only the width is tested against the sentinel. */
  function ChooseSwapExtent(capabilities: SurfaceCapabilities, drawable: DrawableSize): (r: Extent2D)
    requires IsUndefinedExtent(capabilities) ==> ExtentBoundsOrdered(capabilities)
    ensures !IsUndefinedExtent(capabilities) ==> r == capabilities.currentExtent
    ensures IsUndefinedExtent(capabilities) ==> WithinExtentBounds(r, capabilities)
    ensures IsUndefinedExtent(capabilities) && WithinExtentBounds(DrawableExtent(drawable), capabilities) ==>
              r == DrawableExtent(drawable)
    ensures IsUndefinedExtent(capabilities) ==>
              forall w :: capabilities.minImageExtent.width <= w <= capabilities.maxImageExtent.width ==>
                Dist(r.width, DrawableExtent(drawable).width) <= Dist(w, DrawableExtent(drawable).width)
    ensures IsUndefinedExtent(capabilities) ==>
              forall h :: capabilities.minImageExtent.height <= h <= capabilities.maxImageExtent.height ==>
                Dist(r.height, DrawableExtent(drawable).height) <= Dist(h, DrawableExtent(drawable).height)
  {
    if capabilities.currentExtent.width != Uint32Max then capabilities.currentExtent
    else
      var actualExtent := DrawableExtent(drawable);
      Extent2D(
        Clamp(actualExtent.width, capabilities.minImageExtent.width, capabilities.maxImageExtent.width),
        Clamp(actualExtent.height, capabilities.minImageExtent.height, capabilities.maxImageExtent.height))
  }

  /** An image count the surface accepts as far as the upper bound goes (0 = no bound). */
  predicate BelowMaxImageCount(count: int, maxImageCount: U32) {
    maxImageCount == 0 || count <= maxImageCount
  }

  /** The image count CreateSwapChain requests: minImageCount + 1 in uint32 arithmetic,
      lowered to maxImageCount when that is non-zero and smaller. */
  function RequestedImageCount(capabilities: SurfaceCapabilities): (r: U32)
    ensures capabilities.minImageCount < Uint32Max ==>
              && r <= capabilities.minImageCount + 1
              && BelowMaxImageCount(r, capabilities.maxImageCount)
              && forall c :: r < c <= capabilities.minImageCount + 1 ==> !BelowMaxImageCount(c, capabilities.maxImageCount)
    ensures capabilities.minImageCount < Uint32Max && BelowMaxImageCount(capabilities.minImageCount, capabilities.maxImageCount) ==>
              capabilities.minImageCount <= r
    ensures capabilities.minImageCount == Uint32Max ==> r == 0
  {
    var imageCount := AddU32(capabilities.minImageCount, 1);
    if capabilities.maxImageCount > 0 && imageCount > capabilities.maxImageCount then capabilities.maxImageCount
    else imageCount
  }

  datatype SharingMode = Exclusive | Concurrent

  /** imageSharingMode with the queue-family index array that goes with it. */
  datatype ImageSharing = ImageSharing(mode: SharingMode, queueFamilyIndices: seq<nat>)

  /** The sharing choice of CreateSwapChain: concurrent across both families when the
      graphics and present families differ, exclusive with no index array otherwise. */
  function ChooseImageSharing(indices: QueueFamilyIndices): (r: ImageSharing)
    requires indices.IsComplete()
    ensures r.mode == Concurrent <==> indices.graphicsFamily != indices.presentFamily
    ensures r.mode == Concurrent ==>
              r.queueFamilyIndices == [indices.graphicsFamily.value, indices.presentFamily.value]
    ensures r.mode == Exclusive ==> r.queueFamilyIndices == []
  {
    if indices.graphicsFamily != indices.presentFamily then
      ImageSharing(Concurrent, [indices.graphicsFamily.value, indices.presentFamily.value])
    else ImageSharing(Exclusive, [])
  }

  /** The negotiated fields of VkSwapchainCreateInfoKHR. */
  datatype SwapchainCreateInfo = SwapchainCreateInfo(
    minImageCount: U32,
    imageFormat: Format,
    imageColorSpace: ColorSpace,
    imageExtent: Extent2D,
    imageArrayLayers: nat,
    preTransform: U32,
    presentMode: PresentMode,
    sharing: ImageSharing,
    clipped: bool,
    oldSwapchain: Handle)

  /** Preconditions CreateSwapChain relies on without checking them: a format to fall
      back on, both queue families (std::optional::value), and ordered extent bounds
      for std::clamp. */
  predicate CanCreateSwapchain(support: SwapChainSupportDetails, indices: QueueFamilyIndices) {
    && |support.formats| > 0
    && indices.IsComplete()
    && (IsUndefinedExtent(support.capabilities) ==> ExtentBoundsOrdered(support.capabilities))
  }

  /** The create-info CreateSwapChain fills in from the device's support details, its
      queue families and the window's drawable size. */
  function CreateSwapchainInfo(support: SwapChainSupportDetails, indices: QueueFamilyIndices, drawable: DrawableSize): (r: SwapchainCreateInfo)
    requires CanCreateSwapchain(support, indices)
    ensures SurfaceFormat(r.imageFormat, r.imageColorSpace) in support.formats
    ensures r.presentMode == PresentModeMailbox || r.presentMode == PresentModeFifo
    ensures r.sharing.mode == Exclusive <==> indices.graphicsFamily == indices.presentFamily
    ensures r.imageArrayLayers == 1 && r.clipped && r.oldSwapchain == NullHandle
    ensures r.preTransform == support.capabilities.currentTransform
    ensures SurfaceFormat(r.imageFormat, r.imageColorSpace) == ChooseSwapSurfaceFormat(support.formats)
    ensures r.presentMode == ChooseSwapPresentMode(support.presentModes)
    ensures r.imageExtent == ChooseSwapExtent(support.capabilities, drawable)
    ensures r.minImageCount == RequestedImageCount(support.capabilities)
    ensures r.sharing == ChooseImageSharing(indices)
    ensures IsUndefinedExtent(support.capabilities) ==> WithinExtentBounds(r.imageExtent, support.capabilities)
    ensures !IsUndefinedExtent(support.capabilities) ==> r.imageExtent == support.capabilities.currentExtent
    ensures ValidImageCountLimits(support.capabilities) && support.capabilities.minImageCount < Uint32Max ==>
              && support.capabilities.minImageCount <= r.minImageCount
              && (support.capabilities.maxImageCount > 0 ==> r.minImageCount <= support.capabilities.maxImageCount)
  {
    var surfaceFormat := ChooseSwapSurfaceFormat(support.formats);
    var presentMode := ChooseSwapPresentMode(support.presentModes);
    var extent := ChooseSwapExtent(support.capabilities, drawable);
    SwapchainCreateInfo(
      RequestedImageCount(support.capabilities),
      surfaceFormat.format,
      surfaceFormat.colorSpace,
      extent,
      1,
      support.capabilities.currentTransform,
      presentMode,
      ChooseImageSharing(indices),
      true,
      NullHandle)
  }

  /** The surface limits the Vulkan specification guarantees: at least one image, and
      a maximum that is either 0 (no limit) or not below the minimum. */
  predicate ValidImageCountLimits(capabilities: SurfaceCapabilities) {
    && 1 <= capabilities.minImageCount
    && (capabilities.maxImageCount == 0 || capabilities.minImageCount <= capabilities.maxImageCount)
  }

  /** Under limits a conforming driver reports, the requested count is accepted by the
      surface: at least the minimum, at most the maximum when there is one, and one
      image above the minimum whenever the maximum allows it. */
  lemma RequestedImageCountIsAccepted(capabilities: SurfaceCapabilities)
    requires ValidImageCountLimits(capabilities)
    requires capabilities.minImageCount < Uint32Max
    ensures capabilities.minImageCount <= RequestedImageCount(capabilities)
    ensures capabilities.maxImageCount > 0 ==> RequestedImageCount(capabilities) <= capabilities.maxImageCount
    ensures capabilities.maxImageCount == 0 || capabilities.minImageCount < capabilities.maxImageCount ==>
              RequestedImageCount(capabilities) == capabilities.minImageCount + 1
  {
  }

  /** minImageCount = 2 with no maximum requests 3 images. */
  lemma UnboundedMaximumAddsOneImage(capabilities: SurfaceCapabilities)
    requires capabilities.minImageCount == 2 && capabilities.maxImageCount == 0
    ensures RequestedImageCount(capabilities) == 3
  {
  }

  /** minImageCount = 2 with maxImageCount = 2 requests 2 images. */
  lemma MaximumCapsImageCount(capabilities: SurfaceCapabilities)
    requires capabilities.minImageCount == 2 && capabilities.maxImageCount == 2
    ensures RequestedImageCount(capabilities) == 2
  {
  }

  /** Sentinel extent, drawable 800x600, bounds 640x480..1920x1080: the extent is 800x600. */
  lemma SentinelExtentUsesDrawableSize(capabilities: SurfaceCapabilities)
    requires capabilities.currentExtent == Extent2D(Uint32Max, Uint32Max)
    requires capabilities.minImageExtent == Extent2D(640, 480)
    requires capabilities.maxImageExtent == Extent2D(1920, 1080)
    ensures ChooseSwapExtent(capabilities, DrawableSize(800, 600)) == Extent2D(800, 600)
  {
  }

  /** Only the width is compared with the sentinel: a sentinel height alone does not
      make the drawable size count, and the current extent is returned verbatim. */
  lemma OnlyWidthIsTestedForSentinel(capabilities: SurfaceCapabilities, drawable: DrawableSize)
    requires capabilities.currentExtent == Extent2D(800, Uint32Max)
    ensures ChooseSwapExtent(capabilities, drawable) == Extent2D(800, Uint32Max)
  {
  }

  /** A negative drawable component (which lies below every minimum) becomes a huge
      value under `static_cast<uint32_t>`, so it is clamped to the MAXIMUM extent. */
  lemma NegativeDrawableClampsToMax(capabilities: SurfaceCapabilities, drawable: DrawableSize)
    requires IsUndefinedExtent(capabilities) && ExtentBoundsOrdered(capabilities)
    requires capabilities.maxImageExtent.width < 0x8000_0000 && capabilities.maxImageExtent.height < 0x8000_0000
    ensures drawable.width < 0 ==> ChooseSwapExtent(capabilities, drawable).width == capabilities.maxImageExtent.width
    ensures drawable.height < 0 ==> ChooseSwapExtent(capabilities, drawable).height == capabilities.maxImageExtent.height
  {
  }

  /** A drawable size larger than the surface allows is cut down to the maximum, one
      smaller than it allows is raised to the minimum, component by component. */
  lemma ExtentClampsEachComponent(capabilities: SurfaceCapabilities, drawable: DrawableSize)
    requires IsUndefinedExtent(capabilities) && ExtentBoundsOrdered(capabilities)
    requires drawable.width >= 0 && drawable.height >= 0
    ensures drawable.width > capabilities.maxImageExtent.width ==>
              ChooseSwapExtent(capabilities, drawable).width == capabilities.maxImageExtent.width
    ensures drawable.width < capabilities.minImageExtent.width ==>
              ChooseSwapExtent(capabilities, drawable).width == capabilities.minImageExtent.width
    ensures drawable.height > capabilities.maxImageExtent.height ==>
              ChooseSwapExtent(capabilities, drawable).height == capabilities.maxImageExtent.height
    ensures drawable.height < capabilities.minImageExtent.height ==>
              ChooseSwapExtent(capabilities, drawable).height == capabilities.minImageExtent.height
  {
  }

  /** The chosen present mode is missing from the device's list exactly when the list
      has neither MAILBOX nor FIFO: FIFO is returned without being looked up. */
  lemma FifoIsAssumedNotLookedUp(availablePresentModes: seq<PresentMode>)
    ensures ChooseSwapPresentMode(availablePresentModes) !in availablePresentModes <==>
              PresentModeMailbox !in availablePresentModes && PresentModeFifo !in availablePresentModes
  {
  }

  /** The surface-format choice depends only on the first preferred entry or, failing
      one, on the first entry: appending formats never changes a choice already made
      by a preferred entry. */
  lemma {:induction false} PreferredFormatChoiceIgnoresLaterEntries(availableFormats: seq<SurfaceFormat>, more: seq<SurfaceFormat>)
    requires Exists(availableFormats, IsPreferredFormat)
    ensures ChooseSwapSurfaceFormat(availableFormats + more) == ChooseSwapSurfaceFormat(availableFormats)
  {
    var i :| 0 <= i < |availableFormats| && IsPreferredFormat(availableFormats[i]);
    assert (availableFormats + more)[i] == availableFormats[i];
  }

  /** The swapchain's sharing mode and the logical device's queue create-infos agree:
      exclusive ownership exactly when a single queue family is created, and in the
      concurrent case the listed families are exactly the created ones. */
  lemma SharingAgreesWithQueueCreation(indices: QueueFamilyIndices)
    requires indices.IsComplete()
    ensures ChooseImageSharing(indices).mode == Exclusive <==> |QueueCreateInfos(indices)| == 1
    ensures ChooseImageSharing(indices).mode == Concurrent ==>
              (set f | f in ChooseImageSharing(indices).queueFamilyIndices) == CreateInfoFamilies(QueueCreateInfos(indices))
  {
  }
}

=== FILE: teardown.dfy ===
/**
 Renderer::Cleanup (also run by the destructor): the order in which the renderer
 idles the device and destroys what Init created. The order is the code's own,
 which is not the reverse of creation.
 */
module Teardown {
  import opened Startup

  datatype CleanupCall = DeviceWaitIdle | Destroy(target: Object)

  /** One destroy call per image, for images 0, 1, ..., `count` - 1. */
  function DestroyEach(kind: PerImage, count: nat): (r: seq<CleanupCall>)
    ensures |r| == count
    ensures forall i :: 0 <= i < count ==> r[i] == Destroy(ForImage(kind, i))
  {
    if count == 0 then [] else DestroyEach(kind, count - 1) + [Destroy(ForImage(kind, count - 1))]
  }

  /** Cleanup's calls after a successful Init whose swapchain gave `imageCount` images:
      idle the device; the debug messenger only with validation layers and only if the
      destroy entry point loads; the command pool (freeing its command buffer); both
      semaphores and the fence; every framebuffer; every image view; pipeline, layout,
      render pass, swapchain, device, surface and instance. */
  function Cleanup(validation: bool, destroyEntryLoaded: bool, imageCount: nat): (r: seq<CleanupCall>)
    ensures |r| == 12 + MessengerSlots(validation, destroyEntryLoaded) + 2 * imageCount
  {
    [DeviceWaitIdle]
    + (if validation && destroyEntryLoaded then [Destroy(DebugMessenger)] else [])
    + [Destroy(CommandPool), Destroy(ImageAvailableSemaphore), Destroy(RenderFinishedSemaphore), Destroy(InFlightFence)]
    + DestroyEach(FramebufferOf, imageCount)
    + DestroyEach(ViewOf, imageCount)
    + [Destroy(Pipeline), Destroy(PipelineLayout), Destroy(RenderPass), Destroy(Swapchain),
       Destroy(Device), Destroy(Surface), Destroy(Instance)]
  }

  predicate DestroysOne(c: CleanupCall, p: Object -> bool) {
    c.Destroy? && p(c.target)
  }

  /** Every object matching `p` is destroyed before every object matching `q`. */
  predicate AllBefore(t: seq<CleanupCall>, p: Object -> bool, q: Object -> bool) {
    forall i, j :: 0 <= i < |t| && 0 <= j < |t| && DestroysOne(t[i], p) && DestroysOne(t[j], q) ==> i < j
  }

  predicate NoneDestroyed(t: seq<CleanupCall>, p: Object -> bool) {
    forall i :: 0 <= i < |t| ==> !DestroysOne(t[i], p)
  }

  /** `x` occurs before `y` in the sequence. */
  predicate Precedes(s: seq<Object>, x: Object, y: Object) {
    exists i, j :: 0 <= i < j < |s| && s[i] == x && s[j] == y
  }

  /** The objects a cleanup trace destroys. */
  function DestroyedSet(t: seq<CleanupCall>): set<Object> {
    set i | 0 <= i < |t| && t[i].Destroy? :: t[i].target
  }

  /** 1 when Cleanup destroys the debug messenger, 0 otherwise. */
  function MessengerSlots(validation: bool, destroyEntryLoaded: bool): nat {
    if validation && destroyEntryLoaded then 1 else 0
  }

  /** Where the calls before the per-image objects sit, with `m` messenger slots. */
  ghost predicate HeadLayout(t: seq<CleanupCall>, m: nat) {
    && 5 + m <= |t|
    && t[0] == DeviceWaitIdle
    && (forall i :: 1 <= i < 1 + m ==> t[i] == Destroy(DebugMessenger))
    && t[1 + m] == Destroy(CommandPool)
    && t[2 + m] == Destroy(ImageAvailableSemaphore)
    && t[3 + m] == Destroy(RenderFinishedSemaphore)
    && t[4 + m] == Destroy(InFlightFence)
  }

  /** Where the framebuffers and image views of `n` images sit. */
  ghost predicate ImageLayout(t: seq<CleanupCall>, m: nat, n: nat) {
    && 5 + m + 2 * n <= |t|
    && (forall i :: 5 + m <= i < 5 + m + n ==> t[i] == Destroy(Framebuffer(i - 5 - m)))
    && (forall i :: 5 + m + n <= i < 5 + m + 2 * n ==> t[i] == Destroy(ImageView(i - 5 - m - n)))
  }

  /** Where the last seven calls sit. */
  ghost predicate TailLayout(t: seq<CleanupCall>, m: nat, n: nat) {
    && |t| == 12 + m + 2 * n
    && t[5 + m + 2 * n] == Destroy(Pipeline)
    && t[6 + m + 2 * n] == Destroy(PipelineLayout)
    && t[7 + m + 2 * n] == Destroy(RenderPass)
    && t[8 + m + 2 * n] == Destroy(Swapchain)
    && t[9 + m + 2 * n] == Destroy(Device)
    && t[10 + m + 2 * n] == Destroy(Surface)
    && t[11 + m + 2 * n] == Destroy(Instance)
  }

  ghost predicate Layout(t: seq<CleanupCall>, m: nat, n: nat) {
    HeadLayout(t, m) && ImageLayout(t, m, n) && TailLayout(t, m, n)
  }

  /** Cleanup's calls sit where Layout says. */
  lemma CleanupLayout(validation: bool, destroyEntryLoaded: bool, n: nat)
    ensures Layout(Cleanup(validation, destroyEntryLoaded, n), MessengerSlots(validation, destroyEntryLoaded), n)
  {
  }

  /** The device is idled first, and only there. */
  lemma DeviceIdledFirst(validation: bool, destroyEntryLoaded: bool, imageCount: nat)
    ensures var t := Cleanup(validation, destroyEntryLoaded, imageCount);
            t[0] == DeviceWaitIdle && forall i :: 0 < i < |t| ==> t[i].Destroy?
  {
  }

  /** The debug messenger is destroyed exactly when validation layers are enabled and
      the destroy entry point loads. */
  lemma MessengerDestroyedOnlyWithValidation(validation: bool, destroyEntryLoaded: bool, imageCount: nat)
    ensures DebugMessenger in DestroyedSet(Cleanup(validation, destroyEntryLoaded, imageCount))
            <==> validation && destroyEntryLoaded
  {
    CleanupLayout(validation, destroyEntryLoaded, imageCount);
    var t := Cleanup(validation, destroyEntryLoaded, imageCount);
    if validation && destroyEntryLoaded {
      assert t[1] == Destroy(DebugMessenger);
    }
  }

  /** Framebuffers go before the image views they wrap, and the views before the
      swapchain whose images they view. */
  lemma FramebuffersBeforeViewsBeforeSwapchain(validation: bool, destroyEntryLoaded: bool, imageCount: nat)
    ensures AllBefore(Cleanup(validation, destroyEntryLoaded, imageCount), (o: Object) => o.Framebuffer?, (o: Object) => o.ImageView?)
    ensures AllBefore(Cleanup(validation, destroyEntryLoaded, imageCount), (o: Object) => o.ImageView?, (o: Object) => o == Swapchain)
  {
    FramebuffersBeforeViews(validation, destroyEntryLoaded, imageCount);
    ViewsBeforeSwapchain(validation, destroyEntryLoaded, imageCount);
  }

  lemma FramebuffersBeforeViews(validation: bool, destroyEntryLoaded: bool, imageCount: nat)
    ensures AllBefore(Cleanup(validation, destroyEntryLoaded, imageCount), (o: Object) => o.Framebuffer?, (o: Object) => o.ImageView?)
  {
  }

  lemma ViewsBeforeSwapchain(validation: bool, destroyEntryLoaded: bool, imageCount: nat)
    ensures AllBefore(Cleanup(validation, destroyEntryLoaded, imageCount), (o: Object) => o.ImageView?, (o: Object) => o == Swapchain)
  {
  }

  /** The pipeline goes before its layout, and the layout before the render pass. */
  lemma PipelineBeforeLayoutBeforeRenderPass(validation: bool, destroyEntryLoaded: bool, imageCount: nat)
    ensures AllBefore(Cleanup(validation, destroyEntryLoaded, imageCount), (o: Object) => o == Pipeline, (o: Object) => o == PipelineLayout)
    ensures AllBefore(Cleanup(validation, destroyEntryLoaded, imageCount), (o: Object) => o == PipelineLayout, (o: Object) => o == RenderPass)
  {
    PipelineBeforeLayout(validation, destroyEntryLoaded, imageCount);
    LayoutBeforeRenderPass(validation, destroyEntryLoaded, imageCount);
  }

  lemma PipelineBeforeLayout(validation: bool, destroyEntryLoaded: bool, imageCount: nat)
    ensures AllBefore(Cleanup(validation, destroyEntryLoaded, imageCount), (o: Object) => o == Pipeline, (o: Object) => o == PipelineLayout)
  {
  }

  lemma LayoutBeforeRenderPass(validation: bool, destroyEntryLoaded: bool, imageCount: nat)
    ensures AllBefore(Cleanup(validation, destroyEntryLoaded, imageCount), (o: Object) => o == PipelineLayout, (o: Object) => o == RenderPass)
  {
  }

  /** Objects created from the logical device. */
  predicate OwnedByDevice(o: Object) {
    o !in {Instance, DebugMessenger, Surface, Device}
  }

  /** Every object the device owns is destroyed before the device, and the trace ends
      with the device, the surface and the instance, in that order. */
  lemma DeviceObjectsBeforeDeviceSurfaceInstance(validation: bool, destroyEntryLoaded: bool, imageCount: nat)
    ensures AllBefore(Cleanup(validation, destroyEntryLoaded, imageCount), OwnedByDevice, (o: Object) => o == Device)
    ensures var t := Cleanup(validation, destroyEntryLoaded, imageCount);
            t[|t| - 3..] == [Destroy(Device), Destroy(Surface), Destroy(Instance)]
  {
  }

  /** The swapchain's images are released with the swapchain and never destroyed one
      by one. */
  lemma SwapchainImagesNeverDestroyed(validation: bool, destroyEntryLoaded: bool, imageCount: nat)
    ensures NoneDestroyed(Cleanup(validation, destroyEntryLoaded, imageCount), (o: Object) => o.SwapchainImage?)
  {
  }

  /** No object is destroyed twice. */
  lemma NothingDestroyedTwice(validation: bool, destroyEntryLoaded: bool, imageCount: nat)
    ensures var t := Cleanup(validation, destroyEntryLoaded, imageCount);
            forall i, j :: 0 <= i < j < |t| ==> t[i] != t[j]
  {
  }

  /** Where Cleanup destroys each object it destroys, with `m` messenger slots and `n`
      images. */
  function SlotOf(o: Object, m: nat, n: nat): nat {
    match o
    case DebugMessenger => 1
    case CommandPool => 1 + m
    case ImageAvailableSemaphore => 2 + m
    case RenderFinishedSemaphore => 3 + m
    case InFlightFence => 4 + m
    case Framebuffer(i) => 5 + m + i
    case ImageView(i) => 5 + m + n + i
    case Pipeline => 5 + m + 2 * n
    case PipelineLayout => 6 + m + 2 * n
    case RenderPass => 7 + m + 2 * n
    case Swapchain => 8 + m + 2 * n
    case Device => 9 + m + 2 * n
    case Surface => 10 + m + 2 * n
    case Instance => 11 + m + 2 * n
    case _ => 0
  }

  /** What Cleanup destroys of a successful Init's objects. */
  ghost predicate ReleasedByCleanup(validation: bool, destroyEntryLoaded: bool, imageCount: nat, o: Object) {
    && CreatedByInit(validation, imageCount, o)
    && o != CommandBuffer
    && !o.SwapchainImage?
    && (o == DebugMessenger ==> destroyEntryLoaded)
  }

  lemma CleanupDestroysOnlyReleased(validation: bool, destroyEntryLoaded: bool, imageCount: nat, o: Object)
    requires o in DestroyedSet(Cleanup(validation, destroyEntryLoaded, imageCount))
    ensures ReleasedByCleanup(validation, destroyEntryLoaded, imageCount, o)
  {
  }

  lemma {:induction false} CleanupDestroysAllReleased(validation: bool, destroyEntryLoaded: bool, imageCount: nat, o: Object)
    requires ReleasedByCleanup(validation, destroyEntryLoaded, imageCount, o)
    ensures o in DestroyedSet(Cleanup(validation, destroyEntryLoaded, imageCount))
  {
    CleanupLayout(validation, destroyEntryLoaded, imageCount);
    var t := Cleanup(validation, destroyEntryLoaded, imageCount);
    var i := SlotOf(o, MessengerSlots(validation, destroyEntryLoaded), imageCount);
    assert 0 <= i < |t| && t[i] == Destroy(o);
  }

  /** After a successful Init, Cleanup destroys exactly what Init created, except the
      command buffer (freed with its pool), the swapchain images (owned by the
      swapchain), and the debug messenger when the destroy entry point does not load. */
  lemma CleanupDestroysWhatInitCreated(validation: bool, destroyEntryLoaded: bool, imageCount: nat, o: Object)
    ensures o in DestroyedSet(Cleanup(validation, destroyEntryLoaded, imageCount)) <==>
              && o in CreationOrder(InitPlan(validation), imageCount)
              && o != CommandBuffer
              && !o.SwapchainImage?
              && (o == DebugMessenger ==> destroyEntryLoaded)
  {
    InitCreatesExactly(validation, imageCount, o);
    if o in DestroyedSet(Cleanup(validation, destroyEntryLoaded, imageCount)) {
      CleanupDestroysOnlyReleased(validation, destroyEntryLoaded, imageCount, o);
    }
    if ReleasedByCleanup(validation, destroyEntryLoaded, imageCount, o) {
      CleanupDestroysAllReleased(validation, destroyEntryLoaded, imageCount, o);
    }
  }

  lemma CommandPoolCreatedBeforeFence(validation: bool, imageCount: nat)
    ensures Precedes(CreationOrder(InitPlan(validation), imageCount), CommandPool, InFlightFence)
  {
    var plan := InitPlan(validation);
    var front := plan[..|plan| - 1];
    var c := CreationOrder(plan, imageCount);
    var early := CreationOrder(front, imageCount);
    assert c == early + [ImageAvailableSemaphore, RenderFinishedSemaphore, InFlightFence];
    var d := if validation then 1 else 0;
    assert front[9 + d] == CreateCommandPool;
    InCreationOrder(front, imageCount, CommandPool);
    var i :| 0 <= i < |early| && early[i] == CommandPool;
    var j := |early| + 2;
    assert 0 <= i < j < |c| && c[i] == CommandPool && c[j] == InFlightFence;
    assert Precedes(c, CommandPool, InFlightFence);
  }

  lemma CommandPoolDestroyedBeforeFence(validation: bool, destroyEntryLoaded: bool, imageCount: nat)
    ensures AllBefore(Cleanup(validation, destroyEntryLoaded, imageCount), (o: Object) => o == CommandPool, (o: Object) => o == InFlightFence)
  {
  }

  /** Cleanup is not the reverse of creation: Init creates the command pool before the
      fence, and Cleanup destroys the command pool before the fence as well. */
  lemma CleanupIsNotReverseOfCreation(validation: bool, destroyEntryLoaded: bool, imageCount: nat)
    ensures Precedes(CreationOrder(InitPlan(validation), imageCount), CommandPool, InFlightFence)
    ensures AllBefore(Cleanup(validation, destroyEntryLoaded, imageCount), (o: Object) => o == CommandPool, (o: Object) => o == InFlightFence)
  {
    CommandPoolCreatedBeforeFence(validation, imageCount);
    CommandPoolDestroyedBeforeFence(validation, destroyEntryLoaded, imageCount);
  }
}

=== FILE: vk.dfy ===
/**
 Plain-data vocabulary of the Vulkan and SDL interfaces the renderer talks to.
 Handles are opaque numbers, enumerations are their numeric codes as fixed by
 the Vulkan 1.3 specification, and every driver or SDL query the renderer makes
 becomes a field of an immutable record.
 */
module Vk {

  /** C `uint32_t` and `int`, with their widths written out. */
  const Uint32Max: int := 0xFFFF_FFFF
  type U32 = x: int | 0 <= x <= Uint32Max
  type I32 = x: int | -0x8000_0000 <= x < 0x8000_0000

  /** `static_cast<uint32_t>` of a C `int`: negative values wrap modulo 2^32. */
  function ToU32(x: I32): (r: U32)
    ensures r % 0x1_0000_0000 == x % 0x1_0000_0000
    ensures x >= 0 ==> r == x
  {
    if x >= 0 then x else x + 0x1_0000_0000
  }

  /** Unsigned 32-bit addition as the C++ code performs it. */
  function AddU32(a: U32, b: U32): (r: U32)
    ensures a + b <= Uint32Max ==> r == a + b
    ensures a + b > Uint32Max ==> r == a + b - 0x1_0000_0000
  {
    (a + b) % 0x1_0000_0000
  }

  /** Opaque handle; zero is VK_NULL_HANDLE. */
  type Handle = nat
  const NullHandle: Handle := 0
  type LiveHandle = h: Handle | h != NullHandle witness 1

  /** VkResult codes used by the renderer. */
  type VkResult = int
  const Success: VkResult := 0
  const ErrorExtensionNotPresent: VkResult := -7
  const SuboptimalKhr: VkResult := 1000001003

  /** VkBool32. */
  type Bool32 = b: int | 0 <= b <= 1
  const False32: Bool32 := 0

  /** VkFormat and VkColorSpaceKHR codes. */
  type Format = int
  type ColorSpace = int
  const FormatB8G8R8A8Srgb: Format := 50
  const ColorSpaceSrgbNonlinear: ColorSpace := 0

  datatype SurfaceFormat = SurfaceFormat(format: Format, colorSpace: ColorSpace)

  /** VkPresentModeKHR codes the renderer looks for; a device may report any others. */
  type PresentMode = int
  const PresentModeMailbox: PresentMode := 1
  const PresentModeFifo: PresentMode := 2

  /** VkQueueFlagBits: VK_QUEUE_GRAPHICS_BIT. */
  const QueueGraphicsBit: bv32 := 0x1

  datatype Extent2D = Extent2D(width: U32, height: U32)

  /** The fields of VkSurfaceCapabilitiesKHR that the renderer reads. */
  datatype SurfaceCapabilities = SurfaceCapabilities(
    minImageCount: U32,
    maxImageCount: U32,       // 0 means "no limit"
    currentExtent: Extent2D,  // width 0xFFFFFFFF means "decided by the swapchain"
    minImageExtent: Extent2D,
    maxImageExtent: Extent2D,
    currentTransform: U32)

  /** Drawable size in pixels as SDL_Vulkan_GetDrawableSize reports it (C ints). */
  datatype DrawableSize = DrawableSize(width: I32, height: I32)

  /** One row of vkGetPhysicalDeviceQueueFamilyProperties, together with the answer
      vkGetPhysicalDeviceSurfaceSupportKHR gives for that family and the bound surface. */
  datatype QueueFamily = QueueFamily(queueFlags: bv32, presentSupport: bool)

  /** What QuerySwapChainSupport gathers for one device and the bound surface. */
  datatype SwapChainSupportDetails = SwapChainSupportDetails(
    capabilities: SurfaceCapabilities,
    formats: seq<SurfaceFormat>,
    presentModes: seq<PresentMode>)

  /** Snapshot of everything the renderer asks the driver about one physical device. */
  datatype PhysicalDevice = PhysicalDevice(
    handle: LiveHandle,
    queueFamilies: seq<QueueFamily>,
    extensions: seq<string>,
    support: SwapChainSupportDetails)
}
